=== FILE: README.md ===
# Retirement calculator: projection, cache maintenance and start-up loading

A Dafny model of the Spring back end of a retirement calculator. The back end has three cooperating parts:

- **RetirementService.calculatePlan** validates a request and reads two Redis databases under the lower-cased lifestyle type. Database 0 holds the monthly deposit and database 1 the annual interest rate. It then projects the savings at retirement with `BigDecimal` arithmetic.
- **CacheService** maintains database 0 from the stored `LifestyleDeposit` rows. It can refresh one key or all keys, fetch one entry or all entries, update, delete, and report the cache status.
- **RedisDataLoader** fills database 0 from the stored rows and database 1 from a CSV file when the application starts.

How the model is built:

- `Decimals` models `BigDecimal` as an unscaled integer with a non-negative scale.
  - `add`, `subtract`, `multiply` and `pow` are exact.
  - `divide` and `setScale` round HALF_UP (ties away from zero). Rounding is characterised by the predicate `HalfUpAt` on the exact real value.
  - `DecimalText` is the `BigDecimal(String)` parser together with a plain renderer.
- `RetirementService` is pure. The two Redis reads become map parameters. A Redis failure becomes `reachable == false`. The three domain exceptions become `CalcError`.
- `RedisStore` is the Redis server, a class with the two databases as map fields. Its `outage` field, when set, makes every command fail with that message.
- `Caching` and `DataLoading` hold the two Spring beans as classes over a shared `Redis` object.
  - Their methods change the server step by step.
  - Each method is proved equal to a function of the old server state. The lemmas are stated about those functions.
- `Interplay` states what happens when the three parts meet.

Where the code and its documentation or tests disagree, the model follows the code. (Its one departure from the code, the month count, is listed under "## Findings".)

- The age checks accept age 17, although their message says "must be greater than 17".
- A negative interest rate is not refused by the service (`NegativeRateAccepted`). Only the request's bean-validation annotation refuses it, before the service is called.

## Model

| member | source | states |
|---|---|---|
| RetirementService.ErrorCodeIdentifiesKind | retirementCalculator/src/main/java/com/example/retirementCalculator/exception/InvalidInputException.java:27-28 | Invalid input, lifestyle not found and calculation failure carry RC-400, RC-404 and RC-500 respectively: two errors share a code exactly when they are of the same kind |
| RetirementService.AgeError | retirementCalculator/src/main/java/com/example/retirementCalculator/service/RetirementService.java:67-75 | The ages pass validation exactly when 17 <= currentAge < retirementAge; otherwise the first failing check names its field and reason |
| RetirementService.InvalidAgesReportedFirst | retirementCalculator/src/main/java/com/example/retirementCalculator/service/RetirementService.java:67-77 | Invalid ages are reported as that InvalidInput whatever the caches hold and whether or not Redis answers |
| RetirementService.Months | retirementCalculator/src/main/java/com/example/retirementCalculator/service/RetirementService.java:104 | Once validation passed, the month count is a positive multiple of 12 (at least 12) whose twelfth is the number of years to retirement |
| RetirementService.MonthlyRate | retirementCalculator/src/main/java/com/example/retirementCalculator/service/RetirementService.java:105 | The monthly rate is the annual percentage divided by 1200, rounded HALF_UP to 10 places |
| RetirementService.Projection | retirementCalculator/src/main/java/com/example/retirementCalculator/service/RetirementService.java:107-115 | With a zero monthly rate the projection is exactly the month-by-month balance without interest; otherwise it is that balance with interest, rounded HALF_UP to 10 places |
| RetirementService.BalanceClosedForm | retirementCalculator/src/main/java/com/example/retirementCalculator/service/RetirementService.java:111-115 | The annuity formula deposit*((1+r)^n - 1)/r equals the balance built by adding interest and then a deposit each month, for every rate and month count |
| RetirementService.BalanceWithoutInterest | retirementCalculator/src/main/java/com/example/retirementCalculator/service/RetirementService.java:109-110 | Without interest the balance after n months is deposit * n |
| RetirementService.AnnuityOfExcess | retirementCalculator/src/main/java/com/example/retirementCalculator/service/RetirementService.java:111-115 | With a non-zero monthly rate, deposit * ((1 + r)^n - 1) divided by r is exactly the balance built month by month, for any deposit |
| RetirementService.FutureValue | retirementCalculator/src/main/java/com/example/retirementCalculator/service/RetirementService.java:107-117 | The future value always has exactly 2 fractional digits. It is deposit*months rounded HALF_UP when the monthly rate is zero, and otherwise the 10-place rounding of the annuity balance rounded again to 2 places |
| RetirementService.ZeroRateFutureValue | retirementCalculator/src/main/java/com/example/retirementCalculator/service/RetirementService.java:109-117 | With a zero monthly rate the future value is deposit*months rounded HALF_UP to 2 places |
| RetirementService.TinyRateIsZero | retirementCalculator/src/main/java/com/example/retirementCalculator/service/RetirementService.java:105-110 | Any annual rate of magnitude below 0.00000006 gives a zero monthly rate, so the zero-interest formula is used |
| RetirementService.OneYearPowerDefined | retirementCalculator/src/main/java/com/example/retirementCalculator/service/RetirementService.java:112 | Twelve months of compounding at any annual rate stay within BigDecimal.pow's exponent range and scale limit; BigInteger's size limit, which only a cached rate far beyond any Double can reach at twelve months, is left out |
| RetirementService.ChooseRate | retirementCalculator/src/main/java/com/example/retirementCalculator/service/RetirementService.java:95-100 | The caller's rate is used when present; otherwise the cached text is parsed, and text that is not a decimal gives no rate |
| RetirementService.Entries | retirementCalculator/src/main/java/com/example/retirementCalculator/service/RetirementService.java:67-100 | The checks before the projection pass only for valid ages and an answering cache, and then yield the cached deposit and the rate used; InvalidInput comes exactly from the age checks, and a not-found error names the caller's spelling |
| RetirementService.Projected | retirementCalculator/src/main/java/com/example/retirementCalculator/service/RetirementService.java:104-117 | The projection fails exactly when the monthly rate is not zero and pow refuses the month count (negative, above 999999999, or a scale beyond the int range); a result has 2 decimals, and for a negative count it is deposit * months rounded HALF_UP |
| RetirementService.CalculatePlan | retirementCalculator/src/main/java/com/example/retirementCalculator/service/RetirementService.java:63-134 | The calculation with the intended month count: only the age checks raise InvalidInput, a not-found error names the caller's spelling, and a result has 2 decimals and echoes the caller's type |
| RetirementService.CalculatePlanAsWritten | retirementCalculator/src/main/java/com/example/retirementCalculator/service/RetirementService.java:63-134 | The calculation with the month count computed in Java int arithmetic: InvalidInput exactly from the age checks, and a result has 2 decimals and echoes the caller's type |
| RetirementService.PlanAsWrittenAgrees | retirementCalculator/src/main/java/com/example/retirementCalculator/service/RetirementService.java:104 | For int ages at most 178956970 years apart, the code as written and the intended calculation give the same outcome on every input |
| RetirementService.PlanAsWrittenNegative | retirementCalculator/src/main/java/com/example/retirementCalculator/service/RetirementService.java:104-117 | Ages 17 and 178956988, rate 0 and a cached deposit of 3000: as written the future value is -6442450932000.00, while the intended month count gives 6442450956000.00 |
| RetirementService.PlanSucceedsIff | retirementCalculator/src/main/java/com/example/retirementCalculator/service/RetirementService.java:63-134 | The calculation succeeds exactly when the ages are valid, Redis answers, both entries exist and parse, and the power is within the exponent and scale limits of BigDecimal.pow |
| RetirementService.PlanResult | retirementCalculator/src/main/java/com/example/retirementCalculator/service/RetirementService.java:120-127 | A success echoes the ages and the caller's spelling of the type, reports the cached deposit and the rate actually used, and carries FutureValue of them |
| RetirementService.PlanOfEntries | retirementCalculator/src/main/java/com/example/retirementCalculator/service/RetirementService.java:63-127 | With valid ages, both entries present and readable, and a defined power, the plan is a success reporting the cached deposit, the rate used and their future value |
| RetirementService.UnreachableCacheFails | retirementCalculator/src/main/java/com/example/retirementCalculator/service/RetirementService.java:129-134 | When Redis fails, every request with valid ages ends in a calculation failure with code RC-500 |
| RetirementService.MissingEntryNotFound | retirementCalculator/src/main/java/com/example/retirementCalculator/service/RetirementService.java:80-92 | A missing deposit or rate entry gives LifestyleNotFound with the caller's spelling, even when the caller gave a rate |
| RetirementService.UnparsableCacheFails | retirementCalculator/src/main/java/com/example/retirementCalculator/service/RetirementService.java:94-100 | Cached text that is not a decimal number ends in a calculation failure, not a not-found error |
| RetirementService.CachedScaleOverflowFails | retirementCalculator/src/main/java/com/example/retirementCalculator/service/RetirementService.java:94-133 | A cached deposit "1e-2147483648", whose scale would leave the int range, is refused by the constructor, so any request with valid ages reading it ends in CalculationFailed |
| RetirementService.RequestedRateOverridesCache | retirementCalculator/src/main/java/com/example/retirementCalculator/service/RetirementService.java:95-100 | With a caller rate, the cached rate text does not affect the outcome, and the reported rate is the caller's |
| RetirementService.LookupIgnoresCase | retirementCalculator/src/main/java/com/example/retirementCalculator/service/RetirementService.java:78-81 | Two spellings with the same lower case give the same outcome, except for the type echoed back |
| RetirementService.CapitalisedKeysUnreachable | retirementCalculator/src/main/java/com/example/retirementCalculator/service/RetirementService.java:78-80 | A deposit entry under a key containing a capital letter never affects any calculation |
| RetirementService.NegativeRateAccepted | retirementCalculator/src/main/java/com/example/retirementCalculator/service/RetirementService.java:67-75 | A negative caller rate passes the service's checks and gives a result |
| RetirementService.ZeroRateScenario | retirementCalculator/src/test/java/com/example/retirementCalculator/service/RetirementServiceTest.java:121-136 | Ages 30 to 65 at rate 0 with a cached deposit of 3000 give 420 months and a future value of 1260000.00 |
| RetirementService.Int32 | retirementCalculator/src/main/java/com/example/retirementCalculator/service/RetirementService.java:104 | The 32-bit two's complement value congruent to an integer, as Java int arithmetic yields |
| RetirementService.MonthsAsWritten | retirementCalculator/src/main/java/com/example/retirementCalculator/service/RetirementService.java:104 | The month count as computed with Java int arithmetic lies in int range and is congruent to the true count modulo 2^32 |
| RetirementService.MonthsAsWrittenWraps | retirementCalculator/src/main/java/com/example/retirementCalculator/service/RetirementService.java:104 | Ages 17 and 178956988 pass validation, yet the int month count is -2147483644 while the true count is 2147483652 |
| RetirementService.MonthsAsWrittenAgrees | retirementCalculator/src/main/java/com/example/retirementCalculator/service/RetirementService.java:104 | For int ages at most 178956970 years apart, the int month count equals the true one |
| Decimals.Add | retirementCalculator/src/main/java/com/example/retirementCalculator/service/RetirementService.java:112 | BigDecimal.add is exact, at the larger of the two scales |
| Decimals.Subtract | retirementCalculator/src/main/java/com/example/retirementCalculator/service/RetirementService.java:113 | BigDecimal.subtract is exact, at the larger of the two scales |
| Decimals.Multiply | retirementCalculator/src/main/java/com/example/retirementCalculator/service/RetirementService.java:110 | BigDecimal.multiply is exact, at the sum of the scales |
| Decimals.Pow | retirementCalculator/src/main/java/com/example/retirementCalculator/service/RetirementService.java:112 | BigDecimal.pow(n) is the exact n-th power, at n times the scale |
| Decimals.Divide | retirementCalculator/src/main/java/com/example/retirementCalculator/service/RetirementService.java:114 | divide(b, s, HALF_UP) is the HALF_UP rounding of the exact quotient to s places |
| Decimals.SetScale | retirementCalculator/src/main/java/com/example/retirementCalculator/service/RetirementService.java:117 | setScale(s, HALF_UP) is the HALF_UP rounding of the value to s places, and keeps the value when the scale grows |
| Decimals.IsZero | retirementCalculator/src/main/java/com/example/retirementCalculator/service/RetirementService.java:109 | compareTo(ZERO) == 0 holds exactly when the value is zero, whatever the scale |
| Decimals.DivHalfUpRounds | retirementCalculator/src/main/java/com/example/retirementCalculator/service/RetirementService.java:105 | DivHalfUp is the HALF_UP rounding of the exact quotient |
| Decimals.RoundsHalfUpUnique | retirementCalculator/src/main/java/com/example/retirementCalculator/service/RetirementService.java:105 | A real has at most one HALF_UP rounding |
| DecimalText.ParsePlain | retirementCalculator/src/main/java/com/example/retirementCalculator/service/RetirementService.java:94 | new BigDecimal(s) reads back every decimal rendered in plain notation, scale included |
| DecimalText.ParseRejects | retirementCalculator/src/main/java/com/example/retirementCalculator/service/RetirementService.java:94 | Text whose first character is not a sign, a point or an ASCII digit is not a decimal number |
| DecimalText.ParseUnsigned | retirementCalculator/src/main/java/com/example/retirementCalculator/service/RetirementService.java:94 | Text with an exponent is read only when the exponent fits an int and, for a non-zero exponent, the resulting scale (fraction digits less the exponent) is at most Integer.MAX_VALUE, as new BigDecimal(String) demands |
| Text.ToLower | retirementCalculator/src/main/java/com/example/retirementCalculator/service/RetirementService.java:78 | Lower-casing keeps the length, leaves no capital, and puts at each position the lower case of the character there (ASCII capitals lowered, every other character kept) |
| Text.ToLowerIdempotent | retirementCalculator/src/main/java/com/example/retirementCalculator/service/RetirementService.java:78 | Lower-casing twice is lower-casing once |
| Text.ToLowerOfLower | retirementCalculator/src/main/java/com/example/retirementCalculator/config/RedisDataLoader.java:79 | A key without capitals is its own lower case |
| Text.NatToString | retirementCalculator/src/main/java/com/example/retirementCalculator/service/CacheService.java:77 | The decimal digits of a size have no leading zero and read back as the size |
| Repository.AmountText | retirementCalculator/src/main/java/com/example/retirementCalculator/config/RedisDataLoader.java:80 | A present amount is written as text that parses back to the same decimal |
| Repository.NullAmountIsNotANumber | retirementCalculator/src/main/java/com/example/retirementCalculator/entity/LifestyleDeposit.java:43 | A missing amount is written as "null", which is not a decimal number |
| Repository.FindByLifestyleType | retirementCalculator/src/main/java/com/example/retirementCalculator/repository/RetirementRepository.java:45 | The row found has exactly the requested type, and none is found only when no row has it |
| Repository.FindUnique | retirementCalculator/src/main/java/com/example/retirementCalculator/entity/LifestyleDeposit.java:39-41 | When stored types are unique, looking up a row's type finds that row |
| RedisStore.Get | retirementCalculator/src/main/java/com/example/retirementCalculator/service/RetirementService.java:80-81 | GET answers a key's text exactly when the key is present, and null otherwise |
| RedisStore.SetAll | retirementCalculator/src/main/java/com/example/retirementCalculator/config/RedisDataLoader.java:77-83 | After a sequence of SETs the keys are the old keys plus the written ones |
| RedisStore.SetAllLastWins | retirementCalculator/src/main/java/com/example/retirementCalculator/config/RedisDataLoader.java:77-83 | After a sequence of SETs a key holds the value of its last SET |
| RedisStore.SetAllUntouched | retirementCalculator/src/main/java/com/example/retirementCalculator/config/RedisDataLoader.java:77-83 | A key no SET writes keeps its old text or stays absent |
| Caching.StatusUpIff | retirementCalculator/src/main/java/com/example/retirementCalculator/service/CacheService.java:64-96 | The status starts with "Redis is UP" exactly when a connection answers the ping and Redis does not fail |
| Caching.FallbackStatus | retirementCalculator/src/main/java/com/example/retirementCalculator/service/CacheService.java:81-88 | Without a connection factory the report is the same whatever the server holds or whether it fails; it is the fallback report exactly when the cache manager knows the key's name, and the no-cache report exactly when it does not |
| Caching.UnresponsiveStatus | retirementCalculator/src/main/java/com/example/retirementCalculator/service/CacheService.java:78-80 | When the server is healthy but the ping gets no answer, the report is exactly the unresponsive message |
| Caching.StatusUpReportsEntry | retirementCalculator/src/main/java/com/example/retirementCalculator/service/CacheService.java:70-77 | When up, the status names the key, says whether it exists, and ends with the stored text's length, or 0 when the key is absent |
| Caching.CacheService.GetCacheStatus | retirementCalculator/src/main/java/com/example/retirementCalculator/service/CacheService.java:64-96 | The status returned is the report for the current server state, the probe and the known caches; nothing changes |
| Caching.DepositTextNotANumber | retirementCalculator/src/main/java/com/example/retirementCalculator/service/CacheService.java:117-118 | The refreshed text "LifestyleType: ..., Amount: ..." is never a decimal number |
| Caching.RefreshEffect | retirementCalculator/src/main/java/com/example/retirementCalculator/service/CacheService.java:110-128 | A refresh first evicts the key. The key then holds the stored row's text, or stays absent with an error reply when no row has that type. Other keys and the rates are unchanged, and a failing server changes nothing and yields the error reply |
| Caching.RefreshIdempotent | retirementCalculator/src/main/java/com/example/retirementCalculator/service/CacheService.java:110-122 | Refreshing a key twice gives the same state and reply as refreshing it once |
| Caching.CacheService.RefreshCache | retirementCalculator/src/main/java/com/example/retirementCalculator/service/CacheService.java:110-128 | The method leaves the server in the refresh's new state and returns its reply |
| Caching.RefreshAllKeys | retirementCalculator/src/main/java/com/example/retirementCalculator/service/CacheService.java:139-162 | After a bulk refresh the deposit keys are exactly the stored types as spelled, with none of the old keys left, and the rates are unchanged |
| Caching.RefreshAllLastWins | retirementCalculator/src/main/java/com/example/retirementCalculator/service/CacheService.java:154-160 | Each stored type holds the text of its last row |
| Caching.RefreshAllEmptyStore | retirementCalculator/src/main/java/com/example/retirementCalculator/service/CacheService.java:142-152 | With no stored rows the deposits end empty and the reply says no records were found |
| Caching.RefreshAllFails | retirementCalculator/src/main/java/com/example/retirementCalculator/service/CacheService.java:163-167 | When the server fails, a bulk refresh leaves the server exactly as it was and replies with the bulk-refresh error prefix followed by the failure's message |
| Caching.RefreshAllAgreesWithRefresh | retirementCalculator/src/main/java/com/example/retirementCalculator/service/CacheService.java:154-160 | With unique types, a bulk refresh leaves each type holding what a single refresh of it stores |
| Caching.RefreshAllIdempotent | retirementCalculator/src/main/java/com/example/retirementCalculator/service/CacheService.java:139-168 | A bulk refresh repeated gives the same state and reply |
| Caching.CacheService.RefreshAllCache | retirementCalculator/src/main/java/com/example/retirementCalculator/service/CacheService.java:139-168 | The method deletes every deposit key, then sets each row in store order, ending in the bulk refresh's state with its reply |
| Caching.CacheService.SetRows | retirementCalculator/src/main/java/com/example/retirementCalculator/service/CacheService.java:154-160 | The loop SETs each row's text under its type as stored, in store order, and touches neither the rates nor the outage |
| Caching.FetchAfterUpdate | retirementCalculator/src/main/java/com/example/retirementCalculator/service/CacheService.java:238-242 | A fetch after an update reads the new value; other keys and the rates are unchanged |
| Caching.FetchAfterDelete | retirementCalculator/src/main/java/com/example/retirementCalculator/service/CacheService.java:256-260 | A fetch after a delete reads null; other keys and the rates are unchanged |
| Caching.DeleteHarmless | retirementCalculator/src/main/java/com/example/retirementCalculator/service/CacheService.java:256-260 | Deleting an absent key changes nothing, and deleting twice is deleting once |
| Caching.FailuresSwallowed | retirementCalculator/src/main/java/com/example/retirementCalculator/service/CacheService.java:238-267 | When Redis fails, update and delete change nothing and fetch answers the error text |
| Caching.CacheService.FetchFromCache | retirementCalculator/src/main/java/com/example/retirementCalculator/service/CacheService.java:177-196 | fetchFromCache answers the deposit text, null, or the error text, and changes nothing |
| Caching.CacheService.UpdateCache | retirementCalculator/src/main/java/com/example/retirementCalculator/service/CacheService.java:238-249 | The method leaves the server in the state of a swallowed-failure SET |
| Caching.CacheService.DeleteFromCache | retirementCalculator/src/main/java/com/example/retirementCalculator/service/CacheService.java:256-267 | The method leaves the server in the state of a swallowed-failure DEL |
| Caching.LabelsDistinct | retirementCalculator/src/main/java/com/example/retirementCalculator/service/CacheService.java:216-217 | The names k:deposit and k:interest never collide, within one key or across keys |
| Caching.FetchedHas | retirementCalculator/src/main/java/com/example/retirementCalculator/service/CacheService.java:212-219 | Every key visited contributes its deposit text and its rate text (null when absent) |
| Caching.FetchedOnly | retirementCalculator/src/main/java/com/example/retirementCalculator/service/CacheService.java:212-219 | Every entry built is the deposit or interest entry of a visited key |
| Caching.FetchedSize | retirementCalculator/src/main/java/com/example/retirementCalculator/service/CacheService.java:210-219 | Visiting distinct keys builds exactly two entries per key |
| Caching.FetchedOfAllKeys | retirementCalculator/src/main/java/com/example/retirementCalculator/service/CacheService.java:199-222 | Visiting all deposit keys in any order gives exactly the fetch-all answer |
| Caching.Ordered | retirementCalculator/src/main/java/com/example/retirementCalculator/service/CacheService.java:201-212 | The key set is visited as a sequence of its distinct members |
| Caching.CacheService.FetchInOrder | retirementCalculator/src/main/java/com/example/retirementCalculator/service/CacheService.java:210-219 | The loop over the keys builds exactly the entries of the keys visited, in order |
| Caching.CacheService.FetchAllCache | retirementCalculator/src/main/java/com/example/retirementCalculator/service/CacheService.java:199-228 | fetchAllCache answers the empty map when Redis fails. Otherwise it answers, for each deposit key k, k:deposit with its text and k:interest with its rate or null, and nothing else (empty when there are no keys) |
| DataLoading.LoadDbLastWins | retirementCalculator/src/main/java/com/example/retirementCalculator/config/RedisDataLoader.java:77-83 | After the DB load each lower-cased stored type holds the amount text of its last row, and the rates are untouched |
| DataLoading.LoadDbUntouched | retirementCalculator/src/main/java/com/example/retirementCalculator/config/RedisDataLoader.java:77-83 | A key that is no row's lower-cased type keeps its old text |
| DataLoading.LoadDbKeysLower | retirementCalculator/src/main/java/com/example/retirementCalculator/config/RedisDataLoader.java:79 | Every key the DB load adds is lower-case |
| DataLoading.RedisDataLoader.LoadFromDB | retirementCalculator/src/main/java/com/example/retirementCalculator/config/RedisDataLoader.java:75-84 | The method sets each row's amount under its lower-cased type in order. When Redis fails with a row to write, the failure escapes and nothing changes |
| DataLoading.ReadRow | retirementCalculator/src/main/java/com/example/retirementCalculator/config/RedisDataLoader.java:101-104 | The per-row map pairs header names with fields by position, or fails when the row is shorter than the header |
| DataLoading.RowMapField | retirementCalculator/src/main/java/com/example/retirementCalculator/config/RedisDataLoader.java:102-104 | A field is stored under the last header of that name, and fields beyond the header are ignored |
| DataLoading.CsvRatesStep | retirementCalculator/src/main/java/com/example/retirementCalculator/config/RedisDataLoader.java:100-111 | Each row either stops the load or sets its rate before the remaining rows run |
| DataLoading.CsvRatesAllRows | retirementCalculator/src/main/java/com/example/retirementCalculator/config/RedisDataLoader.java:100-111 | When every row is well formed and Redis answers, the CSV load is the sequence of SETs of all rows' entries |
| DataLoading.CsvLastWins | retirementCalculator/src/main/java/com/example/retirementCalculator/config/RedisDataLoader.java:106-108 | In a well-formed file each lower-cased type holds the rate of its last row |
| DataLoading.CsvStopsAtFailingRow | retirementCalculator/src/main/java/com/example/retirementCalculator/config/RedisDataLoader.java:96-117 | Rows after a malformed row have no effect, and rows before it stay written |
| DataLoading.CsvKeysLower | retirementCalculator/src/main/java/com/example/retirementCalculator/config/RedisDataLoader.java:106 | Every key the CSV load adds is lower-case |
| DataLoading.LoadCsvWritesOnlyRates | retirementCalculator/src/main/java/com/example/retirementCalculator/config/RedisDataLoader.java:95-118 | The CSV load writes only rates, and a missing or empty file or a failing server changes nothing |
| DataLoading.RedisDataLoader.LoadFromCSV | retirementCalculator/src/main/java/com/example/retirementCalculator/config/RedisDataLoader.java:95-118 | The method sets each row's rate in order until a short row, a missing column or a failing SET stops it; no failure escapes |
| DataLoading.RedisDataLoader.LoadDataToRedis | retirementCalculator/src/main/java/com/example/retirementCalculator/config/RedisDataLoader.java:66-69 | Start-up loads the DB and then the CSV. A DB failure escapes and skips the CSV load |
| DataLoading.StartupSeparatesKeySpaces | retirementCalculator/src/main/java/com/example/retirementCalculator/config/RedisDataLoader.java:66-69 | The DB load writes only deposits and the CSV load only rates |
| Interplay.StartupServesStoredDeposit | retirementCalculator/src/main/java/com/example/retirementCalculator/config/RedisDataLoader.java:77-81 | After start-up the lower case of any spelling of a stored type is a deposit key, and the request reads the amount of the last row of that type, none when the amount is missing |
| Interplay.StartupServesCsvRate | retirementCalculator/src/main/java/com/example/retirementCalculator/config/RedisDataLoader.java:106-108 | After start-up from a well-formed file, a request without a rate uses the rate of the last CSV row of its type |
| Interplay.RefreshedEntryBreaksCalculation | retirementCalculator/src/main/java/com/example/retirementCalculator/service/CacheService.java:117-121 | Once a stored type is refreshed, every valid request for it ends in a calculation failure |
| Interplay.RefreshAllHidesCapitalisedTypes | retirementCalculator/src/main/java/com/example/retirementCalculator/service/CacheService.java:155 | After a bulk refresh, a type stored with a capital letter is not found by any request unless another row is stored under its lower case |

## Left out

- Double conversions: the request's `Double` rate (`BigDecimal.valueOf`), the result's `doubleValue()` rate and the stored `Double` amount are modelled as decimals. The amount's `String.valueOf` spelling is modelled as plain decimal notation; `Double.toString` would write "3000.0" or "1.0E7".
- Negative BigDecimal scales: exponent forms that would give a negative scale are read as scale 0 with the same value.
- RetirementService.PowFails: models only pow's exponent range and the int range of the power's scale, not BigInteger's size limit. BigInteger refuses a magnitude of 2^(2^31 - 1) or more, and BigInteger.pow refuses early once the base's bit length times the exponent reaches about 2^31. A monthly rate at 10 places gives a base of at least 34 bits, so pow refuses by about 63 million months at the latest. A cached rate written with a large exponent, such as "1e60000000", gives a base of about 2·10^8 bits, whose power pow refuses already at 12 months. BigDecimal also rescales by multiplying by BigInteger.TEN.pow(k), which refuses once k reaches about 5.4·10^8 (4k reaching 2^31). None of these refusals is modelled.
- RetirementService.OneYearPowerDefined: states only that twelve months stay within pow's exponent range and scale limit. For a cached rate such as "1e60000000" the code's pow(12) passes BigInteger's size limit and throws. Every rate a request's Double can carry (at most about 1.8·10^308) gives a base of under 1100 bits, far inside that limit.
- RetirementService.Projected: promises a result where BigInteger's size limit makes the code throw CalculationException (see the RetirementService.PowFails line): with a non-zero rate from about 53.7 million months, and at any month count for a cached deposit written with an exponent beyond about ±5.4·10^8 (such as "1e-600000000" or "1e600000000") or for a cached rate large enough that pow refuses (such as "1e60000000").
- RetirementService.CalculatePlan: promises a result where BigInteger's size limit makes the code throw CalculationException (see the RetirementService.PowFails line): with a non-zero rate from about 53.7 million months, and at any month count for a cached deposit written with an exponent beyond about ±5.4·10^8 (such as "1e-600000000" or "1e600000000") or for a cached rate large enough that pow refuses (such as "1e60000000").
- RetirementService.CalculatePlanAsWritten: promises a result where BigInteger's size limit makes the code throw CalculationException (see the RetirementService.PowFails line): with a non-zero rate from about 53.7 million months, and at any month count for a cached deposit written with an exponent beyond about ±5.4·10^8 (such as "1e-600000000" or "1e600000000") or for a cached rate large enough that pow refuses (such as "1e60000000").
- RetirementService.PlanSucceedsIff: promises a result where BigInteger's size limit makes the code throw CalculationException (see the RetirementService.PowFails line): with a non-zero rate from about 53.7 million months, and at any month count for a cached deposit written with an exponent beyond about ±5.4·10^8 (such as "1e-600000000" or "1e600000000") or for a cached rate large enough that pow refuses (such as "1e60000000").
- RetirementService.PlanOfEntries: promises a result where BigInteger's size limit makes the code throw CalculationException (see the RetirementService.PowFails line): with a non-zero rate from about 53.7 million months, and at any month count for a cached deposit written with an exponent beyond about ±5.4·10^8 (such as "1e-600000000" or "1e600000000") or for a cached rate large enough that pow refuses (such as "1e60000000").
- Decimals.SetScale: does not refuse a scale change of about 5.4·10^8 digits or more, where BigDecimal.setScale needs a power of ten past BigInteger's size limit and throws. In the plan this happens for a cached deposit written with an exponent beyond about ±5.4·10^8.
- Decimals.Multiply: BigDecimal throws when a product's scale leaves the int range, and BigInteger throws past its size limit; the model's scales and magnitudes are unbounded.
- Decimals.Subtract: does not refuse a rescaling past BigInteger's size limit. In the plan, subtract(ONE) rescales ONE by 10^(10 * months), which the code refuses from about 53.7 million months for every non-zero rate, earlier than pow refuses a base of 34 bits.
- Decimals.Divide: does not refuse a rescaling past BigInteger's size limit. In the plan, divide rescales by a power of ten whose exponent is about the product's scale, the deposit's scale plus 10 * months, and the code refuses once that reaches about 5.4·10^8.
- DecimalText.Parse: accepts ASCII digits only. BigDecimal(String) also accepts every character for which Character.isDigit holds (Arabic-Indic, fullwidth and other Unicode decimal digits); the model reads such text as not a number.
- Text.ToLower: maps ASCII capitals only; Java's locale-dependent Unicode case mapping is not modelled.
- Null ages and a null lifestyle type are not modelled; bean validation refuses both before the service runs. In the service a null age would escape as a NullPointerException, while a null lifestyle type would be caught by the generic handler and end in CalculationException.
- The request's bean-validation annotations and the HTTP layer (controllers, exception handler) are not part of this model.
- Database failures (`findAll`, `findByLifestyleType` throwing) are not modelled; the store is a sequence of rows.
- Redis partial failures: the server either answers every command or fails them all, so a failure between the DEL and the SET of a refresh is not modelled.
- The race between refreshAllCache's delete and its repopulation under concurrent requests is not modelled.
- Caching.StoredLength: STRLEN counts UTF-8 bytes; the model counts characters, which is the same for ASCII text.
- Connection-factory and ping internals are a probe parameter, and the cache manager's caches a set of names.
- The catch arms for the project's own exception classes (CacheUpdateException, RedisCache*Exception, CacheInitializationException, the project's RedisConnectionFailureException) are not modelled, because the Redis template never throws them. The generic `catch (Exception)` arms are modelled.
- CSV tokenising (opencsv quoting and escaping) and the file path are left out; the file arrives as rows of fields, or None when it cannot be opened.
- Logging is left out.

## Findings

| source | as written | input that shows it | evidently intended | confidence | as-written member | corrected member |
|---|---|---|---|---|---|---|
| retirementCalculator/src/main/java/com/example/retirementCalculator/service/RetirementService.java:104 | the month count is a Java int product of the year span and 12, which wraps for spans above 178956970 years | currentAge 17, retirementAge 178956988 pass validation; the int month count is -2147483644, so with a zero rate and a deposit of 3000 the future value is -6442450932000.00 | months = 12 * (retirementAge - currentAge), at least 12 | not executed | RetirementService.PlanAsWrittenNegative | RetirementService.CalculatePlan |

`CalculatePlan`, which the rest of the model uses, takes the intended month count. `CalculatePlanAsWritten` is the code as written. `PlanAsWrittenAgrees` shows the two agree while the span is at most 178956970 years.

=== FILE: cache_service.dfy ===
/**
 * CacheService: the maintenance operations on the deposit cache.  Each
 * operation is a method of the class that changes the shared Redis server in
 * place; what it does to the server and what it answers are given by a
 * function of the server's snapshot (and of the stored rows), about which the
 * lemmas below are stated.
 */
module Caching {
  import opened Wrappers
  import opened Text
  import opened DecimalText
  import opened Repository
  import opened RedisStore

  /** What an operation leaves on the server, and what it answers. */
  datatype Outcome<T> = Outcome(after: Snapshot, reply: T)

  /** The text both refresh operations store for a row. */
  function DepositText(row: LifestyleDeposit): string
  {
    "LifestyleType: " + row.lifestyleType + ", Amount: " + AmountText(row.monthlyDeposit)
  }

  /** A refreshed entry never reads as a decimal number. */
  lemma DepositTextNotANumber(row: LifestyleDeposit)
    ensures Parse(DepositText(row)) == None
  {
    var t := DepositText(row);
    assert t[0] == 'L';
    ParseRejects(t);
  }

  // ---------------------------------------------------------------- getCacheStatus

  /**
   * How the connection answers: no connection factory configured, a factory
   * whose ping returns null, or one whose ping answers.
   */
  datatype Probe = NoConnectionFactory | NoPong | Pong

  /** STRLEN of a key: the length of its text, 0 when absent. */
  function StoredLength(m: map<string, string>, key: string): nat
  {
    if key in m then |m[key]| else 0
  }

  const FallbackCacheReport := "Cache is initialized " + "(non-Redis), but size is unknown."
  const NoCacheReport := "Cache is NOT initialized " + "(no Redis connection or fallback cache)."
  const UnresponsiveReport := "Redis connection exists " + "but is unresponsive (no PONG)"

  function CacheStatus(s: Snapshot, cacheNames: set<string>, key: string, probe: Probe): string
  {
    match probe
    case NoConnectionFactory =>
      if key in cacheNames then FallbackCacheReport else NoCacheReport
    case _ =>
      if s.outage.Some? then "Error checking cache status: " + s.outage.value
      else if probe == NoPong then UnresponsiveReport
      else
        "Redis is UP | Cache key " + key + (if key in s.deposits then " exists" else " does NOT exist")
        + " | Approximate size: " + NatToString(StoredLength(s.deposits, key))
  }

  /** The report says Redis is up exactly when the connection answers and no command fails. */
  lemma StatusUpIff(s: Snapshot, cacheNames: set<string>, key: string, probe: Probe)
    ensures var status := CacheStatus(s, cacheNames, key, probe);
      (|status| >= 11 && status[..11] == "Redis is UP") <==> (probe == Pong && s.outage.None?)
  {
    var status := CacheStatus(s, cacheNames, key, probe);
    if probe == Pong && s.outage.None? {
      assert status[..11] == "Redis is UP";
    } else if probe == NoConnectionFactory {
      assert FallbackCacheReport[0] == 'C' && NoCacheReport[0] == 'C';
    } else if s.outage.Some? {
      assert status[0] == 'E';
    } else {
      assert UnresponsiveReport[6] == 'c';
    }
  }

  /**
   * Without a connection factory the report does not consult the server at
   * all: it says a fallback cache exists exactly when the cache manager knows
   * the key's cache name, and otherwise that there is no cache.
   */
  lemma FallbackStatus(s: Snapshot, t: Snapshot, cacheNames: set<string>, key: string)
    ensures CacheStatus(s, cacheNames, key, NoConnectionFactory) == CacheStatus(t, cacheNames, key, NoConnectionFactory)
    ensures CacheStatus(s, cacheNames, key, NoConnectionFactory) == FallbackCacheReport <==> key in cacheNames
    ensures CacheStatus(s, cacheNames, key, NoConnectionFactory) == NoCacheReport <==> key !in cacheNames
  {
    assert FallbackCacheReport[9] != NoCacheReport[9];
  }

  /** A connection whose ping gets no answer is reported as unresponsive when the server is otherwise healthy. */
  lemma UnresponsiveStatus(s: Snapshot, cacheNames: set<string>, key: string)
    requires s.outage.None?
    ensures CacheStatus(s, cacheNames, key, NoPong) == UnresponsiveReport
  {
  }

  /**
   * When Redis is up, the report names the key, says whether it exists, and
   * ends in the decimal digits of the stored text's length (0 when absent).
   */
  lemma StatusUpReportsEntry(s: Snapshot, cacheNames: set<string>, key: string)
    requires s.outage.None?
    ensures var prefix := "Redis is UP | Cache key " + key +
                          (if key in s.deposits then " exists" else " does NOT exist") + " | Approximate size: ";
      var status := CacheStatus(s, cacheNames, key, Pong);
      && |prefix| < |status| && status[..|prefix|] == prefix
      && AllDigits(status[|prefix|..])
      && DigitsValue(status[|prefix|..]) == (if key in s.deposits then |s.deposits[key]| else 0)
  {
    var prefix := "Redis is UP | Cache key " + key +
                  (if key in s.deposits then " exists" else " does NOT exist") + " | Approximate size: ";
    var digits := NatToString(StoredLength(s.deposits, key));
    assert CacheStatus(s, cacheNames, key, Pong) == prefix + digits;
    assert (prefix + digits)[|prefix|..] == digits;
  }

  // ---------------------------------------------------------------- refreshCache

  const RefreshFailed := "Error refreshing cache " + "for key: "
  const DepositNotFound := "Deposit not found " + "for key: "
  const Refreshed := "Cache refreshed " + "for key: "

  function Refresh(s: Snapshot, key: string, rows: seq<LifestyleDeposit>): Outcome<string>
  {
    if s.outage.Some? then Outcome(s, RefreshFailed + key + " - " + s.outage.value)
    else
      var evicted := s.(deposits := s.deposits - {key});
      match FindByLifestyleType(rows, key)
      case None =>
        Outcome(evicted, RefreshFailed + key + " - " + DepositNotFound + key)
      case Some(row) =>
        Outcome(evicted.(deposits := evicted.deposits[key := DepositText(row)]),
                Refreshed + key + " with value: " + DepositText(row))
  }

  /**
   * A refresh touches only its key and only the deposits: the key ends up
   * holding the stored row's text, or absent when the store has no row for it.
   * When the server fails nothing changes and the answer reports the error.
   */
  lemma RefreshEffect(s: Snapshot, key: string, rows: seq<LifestyleDeposit>)
    ensures var o := Refresh(s, key, rows);
      && o.after.rates == s.rates && o.after.outage == s.outage
      && (s.outage.Some? ==>
            o.after == s && o.reply == RefreshFailed + key + " - " + s.outage.value)
      && (s.outage.None? ==>
            && (forall k :: k != key ==> Get(o.after.deposits, k) == Get(s.deposits, k))
            && (FindByLifestyleType(rows, key).None? ==>
                  key !in o.after.deposits &&
                  o.reply == RefreshFailed + key + " - " + DepositNotFound + key)
            && (FindByLifestyleType(rows, key).Some? ==>
                  var text := DepositText(FindByLifestyleType(rows, key).value);
                  Get(o.after.deposits, key) == Some(text) &&
                  o.reply == Refreshed + key + " with value: " + text))
  {
  }

  /** Refreshing a key twice gives the same state and the same answer as refreshing it once. */
  lemma RefreshIdempotent(s: Snapshot, key: string, rows: seq<LifestyleDeposit>)
    ensures Refresh(Refresh(s, key, rows).after, key, rows) == Refresh(s, key, rows)
  {
    var first := Refresh(s, key, rows);
    var once := first.after;
    if s.outage.None? {
      assert once.outage.None?;
      var found := FindByLifestyleType(rows, key);
      if found.None? {
        assert once.deposits == s.deposits - {key};
        assert once.deposits - {key} == once.deposits;
        assert once.(deposits := once.deposits - {key}) == once;
      } else {
        var text := DepositText(found.value);
        assert once.deposits == (s.deposits - {key})[key := text];
        assert (once.deposits - {key})[key := text] == once.deposits;
        assert once.(deposits := (once.deposits - {key})[key := text]) == once;
      }
    }
  }

  // ---------------------------------------------------------------- refreshAllCache

  /** The SET commands refreshAllCache issues: one per stored row, in store order. */
  function RefreshWrites(rows: seq<LifestyleDeposit>): seq<(string, string)>
  {
    seq(|rows|, i requires 0 <= i < |rows| => (rows[i].lifestyleType, DepositText(rows[i])))
  }

  const RefreshAllFailed := "Error refreshing all cache entries: "
  const NoRecordsReply := "No LifestyleDeposit records found " + "in the database."
  const RefreshAllDone := "Cache successfully refreshed " + "for all LifestyleDeposit entries."

  function RefreshAll(s: Snapshot, rows: seq<LifestyleDeposit>): Outcome<string>
  {
    if s.outage.Some? then Outcome(s, RefreshAllFailed + s.outage.value)
    else if rows == [] then Outcome(s.(deposits := map[]), NoRecordsReply)
    else Outcome(s.(deposits := SetAll(map[], RefreshWrites(rows))), RefreshAllDone)
  }

  /**
   * After a successful bulk refresh the deposit keys are exactly the stored
   * types, as stored (not lower-cased), whatever keys were there before; the
   * rates are untouched.
   */
  lemma RefreshAllKeys(s: Snapshot, rows: seq<LifestyleDeposit>)
    requires s.outage.None?
    ensures RefreshAll(s, rows).after.deposits.Keys == (set j | 0 <= j < |rows| :: rows[j].lifestyleType)
    ensures RefreshAll(s, rows).after.rates == s.rates
  {
    if rows != [] {
      RefreshWrittenKeys(rows);
    }
  }

  /** The keys a bulk refresh writes are the stored types, as stored. */
  lemma RefreshWrittenKeys(rows: seq<LifestyleDeposit>)
    ensures WrittenKeys(RefreshWrites(rows)) == (set j | 0 <= j < |rows| :: rows[j].lifestyleType)
  {
    var writes := RefreshWrites(rows);
    assert forall j :: 0 <= j < |rows| ==> writes[j].0 == rows[j].lifestyleType;
  }

  /** Each stored type holds the text of the last row with that type. */
  lemma RefreshAllLastWins(s: Snapshot, rows: seq<LifestyleDeposit>, i: nat)
    requires s.outage.None? && i < |rows|
    requires forall j :: i < j < |rows| ==> rows[j].lifestyleType != rows[i].lifestyleType
    ensures rows[i].lifestyleType in RefreshAll(s, rows).after.deposits
    ensures RefreshAll(s, rows).after.deposits[rows[i].lifestyleType] == DepositText(rows[i])
  {
    var writes := RefreshWrites(rows);
    assert writes[i] == (rows[i].lifestyleType, DepositText(rows[i]));
    assert forall j :: i < j < |writes| ==> writes[j].0 == rows[j].lifestyleType;
    SetAllLastWins(map[], writes, i);
  }

  /** With an empty store a bulk refresh empties the deposits and says so. */
  lemma RefreshAllEmptyStore(s: Snapshot)
    requires s.outage.None?
    ensures RefreshAll(s, []).after.deposits == map[]
    ensures RefreshAll(s, []).reply == "No LifestyleDeposit records found in the database."
  {
  }

  /** When the server fails, a bulk refresh changes nothing and its reply carries the error. */
  lemma RefreshAllFails(s: Snapshot, rows: seq<LifestyleDeposit>)
    requires s.outage.Some?
    ensures RefreshAll(s, rows).after == s
    ensures RefreshAll(s, rows).reply == RefreshAllFailed + s.outage.value
  {
  }

  /**
   * Under the unique constraint on the type column, a bulk refresh leaves each
   * stored type holding what a single-key refresh of that type would store.
   */
  lemma RefreshAllAgreesWithRefresh(s: Snapshot, rows: seq<LifestyleDeposit>, i: nat)
    requires s.outage.None? && UniqueTypes(rows) && i < |rows|
    ensures var key := rows[i].lifestyleType;
      Get(RefreshAll(s, rows).after.deposits, key) == Get(Refresh(s, key, rows).after.deposits, key)
  {
    RefreshAllLastWins(s, rows, i);
    FindUnique(rows, i);
  }

  /** A bulk refresh repeated gives the same state and answer. */
  lemma RefreshAllIdempotent(s: Snapshot, rows: seq<LifestyleDeposit>)
    ensures RefreshAll(RefreshAll(s, rows).after, rows) == RefreshAll(s, rows)
  {
  }

  // ---------------------------------------------------------------- fetch, update, delete

  /** fetchFromCache: the deposit text, null (None), or the error text when the server fails. */
  function Fetch(s: Snapshot, key: string): Option<string>
  {
    if s.outage.Some? then Some("Unexpected error fetching from cache: " + s.outage.value)
    else Get(s.deposits, key)
  }

  /** updateCache: a SET whose failure is swallowed. */
  function Update(s: Snapshot, key: string, value: string): Snapshot
  {
    if s.outage.Some? then s else s.(deposits := s.deposits[key := value])
  }

  /** deleteFromCache: a DEL whose failure is swallowed. */
  function Delete(s: Snapshot, key: string): Snapshot
  {
    if s.outage.Some? then s else s.(deposits := s.deposits - {key})
  }

  /** An update is read back, and no other key changes. */
  lemma FetchAfterUpdate(s: Snapshot, key: string, value: string, other: string)
    requires s.outage.None? && other != key
    ensures Fetch(Update(s, key, value), key) == Some(value)
    ensures Fetch(Update(s, key, value), other) == Fetch(s, other)
    ensures Update(s, key, value).rates == s.rates
  {
  }

  /** A deleted key reads as absent, and no other key changes. */
  lemma FetchAfterDelete(s: Snapshot, key: string, other: string)
    requires s.outage.None? && other != key
    ensures Fetch(Delete(s, key), key) == None
    ensures Fetch(Delete(s, key), other) == Fetch(s, other)
    ensures Delete(s, key).rates == s.rates
  {
  }

  /** Deleting an absent key changes nothing; deleting twice is deleting once. */
  lemma DeleteHarmless(s: Snapshot, key: string)
    ensures key !in s.deposits ==> Delete(s, key) == s
    ensures Delete(Delete(s, key), key) == Delete(s, key)
  {
    if s.outage.None? && key !in s.deposits {
      assert s.deposits - {key} == s.deposits;
    }
  }

  /** When the server fails, updates and deletes change nothing and fetches report the error. */
  lemma FailuresSwallowed(s: Snapshot, key: string, value: string)
    requires s.outage.Some?
    ensures Update(s, key, value) == s && Delete(s, key) == s
    ensures Fetch(s, key) == Some("Unexpected error fetching from cache: " + s.outage.value)
  {
  }

  // ---------------------------------------------------------------- fetchAllCache

  /** The entry names fetchAllCache reports for a key. */
  function DepositLabel(key: string): string { key + ":deposit" }
  function InterestLabel(key: string): string { key + ":interest" }

  /** No two keys share a label, and a deposit label is never an interest label. */
  lemma LabelsDistinct(k1: string, k2: string)
    ensures DepositLabel(k1) != InterestLabel(k2)
    ensures DepositLabel(k1) == DepositLabel(k2) ==> k1 == k2
    ensures InterestLabel(k1) == InterestLabel(k2) ==> k1 == k2
  {
    DepositLabelNotInterestLabel(k1, k2);
    if DepositLabel(k1) == DepositLabel(k2) {
      assert k1 == DepositLabel(k1)[..|k1|];
    }
    if InterestLabel(k1) == InterestLabel(k2) {
      assert k1 == InterestLabel(k1)[..|k1|];
    }
  }

  /** The two labels differ in their next-to-last character. */
  lemma DepositLabelNotInterestLabel(k1: string, k2: string)
    ensures DepositLabel(k1) != InterestLabel(k2)
  {
    var d, i := DepositLabel(k1), InterestLabel(k2);
    assert d[|d| - 2] == 'i';
    assert i[|i| - 2] == 's';
  }

  /** The map fetchAllCache builds from the keys taken in the given order. */
  function Fetched(order: seq<string>, deposits: map<string, string>, rates: map<string, string>)
    : map<string, Option<string>>
  {
    if order == [] then map[]
    else
      var key := order[|order| - 1];
      Fetched(order[..|order| - 1], deposits, rates)[DepositLabel(key) := Get(deposits, key)]
                                                    [InterestLabel(key) := Get(rates, key)]
  }

  /** The map holds the deposit and the interest entry of every key taken. */
  lemma {:induction false} FetchedHas(order: seq<string>, deposits: map<string, string>,
                                      rates: map<string, string>, j: nat)
    requires j < |order|
    ensures var r := Fetched(order, deposits, rates);
      && DepositLabel(order[j]) in r && r[DepositLabel(order[j])] == Get(deposits, order[j])
      && InterestLabel(order[j]) in r && r[InterestLabel(order[j])] == Get(rates, order[j])
  {
    var n := |order| - 1;
    var key := order[n];
    LabelsDistinct(key, key);
    if j < n && order[j] != key {
      var prefix := order[..n];
      assert prefix[j] == order[j];
      FetchedHas(prefix, deposits, rates, j);
      LabelsDistinct(order[j], key);
      LabelsDistinct(key, order[j]);
    }
  }

  /** The map holds nothing but entries of the keys taken. */
  lemma {:induction false} FetchedOnly(order: seq<string>, deposits: map<string, string>,
                                       rates: map<string, string>, e: string)
    requires e in Fetched(order, deposits, rates)
    ensures exists j :: 0 <= j < |order| && (e == DepositLabel(order[j]) || e == InterestLabel(order[j]))
  {
    var n := |order| - 1;
    var key := order[n];
    if e != DepositLabel(key) && e != InterestLabel(key) {
      var prefix := order[..n];
      FetchedOnly(prefix, deposits, rates, e);
      var j :| 0 <= j < n && (e == DepositLabel(prefix[j]) || e == InterestLabel(prefix[j]));
      assert prefix[j] == order[j];
    }
  }

  /** For distinct keys the map has two entries per key. */
  lemma {:induction false} FetchedSize(order: seq<string>, deposits: map<string, string>, rates: map<string, string>)
    requires forall i, j :: 0 <= i < j < |order| ==> order[i] != order[j]
    ensures |Fetched(order, deposits, rates)| == 2 * |order|
  {
    if order != [] {
      var n := |order| - 1;
      var prefix, key := order[..n], order[n];
      assert forall j :: 0 <= j < n ==> prefix[j] == order[j];
      FetchedSize(prefix, deposits, rates);
      FreshLabels(prefix, key, deposits, rates);
      LabelsDistinct(key, key);
      MapGrowsByTwo(Fetched(prefix, deposits, rates), DepositLabel(key), InterestLabel(key),
                    Get(deposits, key), Get(rates, key));
    }
  }

  /** A key not yet taken has neither label in the map. */
  lemma FreshLabels(order: seq<string>, key: string, deposits: map<string, string>, rates: map<string, string>)
    requires forall j :: 0 <= j < |order| ==> order[j] != key
    ensures DepositLabel(key) !in Fetched(order, deposits, rates)
    ensures InterestLabel(key) !in Fetched(order, deposits, rates)
  {
    forall e | e in Fetched(order, deposits, rates)
      ensures e != DepositLabel(key) && e != InterestLabel(key)
    {
      FetchedOnly(order, deposits, rates, e);
      var j :| 0 <= j < |order| && (e == DepositLabel(order[j]) || e == InterestLabel(order[j]));
      LabelsDistinct(order[j], key);
      LabelsDistinct(key, order[j]);
    }
  }

  lemma MapGrowsByTwo<V>(m: map<string, V>, a: string, b: string, x: V, y: V)
    requires a !in m && b !in m && a != b
    ensures |m[a := x][b := y]| == |m| + 2
  {
  }

  /**
   * What fetchAllCache answers for the given contents: for every deposit key k
   * exactly the entries k:deposit (its deposit text) and k:interest (its rate
   * text, null when absent), two entries per key.
   */
  predicate IsFetchAll(r: map<string, Option<string>>, deposits: map<string, string>, rates: map<string, string>)
  {
    && (forall k :: k in deposits ==>
          && DepositLabel(k) in r && r[DepositLabel(k)] == Some(deposits[k])
          && InterestLabel(k) in r && r[InterestLabel(k)] == Get(rates, k))
    && (forall e :: e in r ==> exists k :: k in deposits && (e == DepositLabel(k) || e == InterestLabel(k)))
    && |r| == 2 * |deposits|
  }

  /** Taken over all the deposit keys, in any order, the map is what fetchAllCache answers. */
  lemma FetchedOfAllKeys(order: seq<string>, deposits: map<string, string>, rates: map<string, string>)
    requires forall i, j :: 0 <= i < j < |order| ==> order[i] != order[j]
    requires forall k :: k in deposits.Keys <==> k in order
    requires |order| == |deposits.Keys|
    ensures IsFetchAll(Fetched(order, deposits, rates), deposits, rates)
  {
    var r := Fetched(order, deposits, rates);
    FetchedSize(order, deposits, rates);
    forall k | k in deposits
      ensures && DepositLabel(k) in r && r[DepositLabel(k)] == Some(deposits[k])
              && InterestLabel(k) in r && r[InterestLabel(k)] == Get(rates, k)
    {
      var j :| 0 <= j < |order| && order[j] == k;
      FetchedHas(order, deposits, rates, j);
    }
    forall e | e in r
      ensures exists k :: k in deposits && (e == DepositLabel(k) || e == InterestLabel(k))
    {
      FetchedOnly(order, deposits, rates, e);
    }
  }

  /** The keys of a set, in some order (the order the key set is iterated in). */
  method Ordered(keys: set<string>) returns (order: seq<string>)
    ensures |order| == |keys|
    ensures forall k :: k in keys <==> k in order
    ensures forall i, j :: 0 <= i < j < |order| ==> order[i] != order[j]
  {
    order := [];
    var rest := keys;
    while rest != {}
      invariant rest <= keys
      invariant forall k :: k in keys <==> k in order || k in rest
      invariant forall k :: k in order ==> k !in rest
      invariant forall i, j :: 0 <= i < j < |order| ==> order[i] != order[j]
      invariant |order| + |rest| == |keys|
      decreases rest
    {
      var k :| k in rest;
      order := order + [k];
      rest := rest - {k};
    }
  }

  class CacheService {
    const redis: Redis
    /** The backing store's rows (RetirementRepository). */
    const store: seq<LifestyleDeposit>
    /** The names of the caches the CacheManager knows. */
    const cacheNames: set<string>

    constructor (redis: Redis, store: seq<LifestyleDeposit>, cacheNames: set<string>)
      ensures this.redis == redis && this.store == store && this.cacheNames == cacheNames
    {
      this.redis := redis;
      this.store := store;
      this.cacheNames := cacheNames;
    }

    /** getCacheStatus: a status report that never fails and changes nothing. */
    method GetCacheStatus(key: string, probe: Probe) returns (status: string)
      ensures status == CacheStatus(redis.State(), cacheNames, key, probe)
    {
      if probe == NoConnectionFactory {
        if key in cacheNames {
          return FallbackCacheReport;
        }
        return NoCacheReport;
      }
      if redis.outage.Some? {
        return "Error checking cache status: " + redis.outage.value;
      }
      if probe == NoPong {
        return UnresponsiveReport;
      }
      var hasKey := key in redis.deposits;
      var size := if hasKey then |redis.deposits[key]| else 0;
      status := "Redis is UP | Cache key " + key + (if hasKey then " exists" else " does NOT exist")
                + " | Approximate size: " + NatToString(size);
    }

    /** refreshCache: evict the key, then store the backing row's text if there is one. */
    method RefreshCache(key: string) returns (reply: string)
      modifies redis
      ensures Outcome(redis.State(), reply) == Refresh(old(redis.State()), key, store)
    {
      if redis.outage.Some? {
        return RefreshFailed + key + " - " + redis.outage.value;
      }
      redis.deposits := redis.deposits - {key};
      var found := FindByLifestyleType(store, key);
      if found.None? {
        return RefreshFailed + key + " - " + DepositNotFound + key;
      }
      var text := DepositText(found.value);
      redis.deposits := redis.deposits[key := text];
      reply := Refreshed + key + " with value: " + text;
    }

    /** refreshAllCache: delete every deposit key, then SET each stored row in store order. */
    method RefreshAllCache() returns (reply: string)
      modifies redis
      ensures Outcome(redis.State(), reply) == RefreshAll(old(redis.State()), store)
    {
      if redis.outage.Some? {
        return RefreshAllFailed + redis.outage.value;
      }
      var keys := redis.deposits.Keys;
      if keys != {} {
        redis.deposits := redis.deposits - keys;
      }
      assert redis.deposits == map[];
      if store == [] {
        return NoRecordsReply;
      }
      SetRows(store);
      reply := RefreshAllDone;
    }

    /** The loop of refreshAllCache: SET each row's text under its type as stored, in store order. */
    method SetRows(rows: seq<LifestyleDeposit>)
      modifies redis
      ensures redis.deposits == SetAll(old(redis.deposits), RefreshWrites(rows))
      ensures redis.rates == old(redis.rates) && redis.outage == old(redis.outage)
    {
      ghost var writes := RefreshWrites(rows);
      var i := 0;
      while i < |rows|
        invariant 0 <= i <= |rows|
        invariant redis.deposits == SetAll(old(redis.deposits), writes[..i])
        invariant redis.rates == old(redis.rates) && redis.outage == old(redis.outage)
      {
        var row := rows[i];
        redis.deposits := redis.deposits[row.lifestyleType := DepositText(row)];
        SetAllStep(old(redis.deposits), writes, i);
        i := i + 1;
      }
      assert writes[..|rows|] == writes;
    }

    /** fetchFromCache. */
    method FetchFromCache(key: string) returns (cached: Option<string>)
      ensures cached == Fetch(redis.State(), key)
    {
      if redis.outage.Some? {
        return Some("Unexpected error fetching from cache: " + redis.outage.value);
      }
      cached := if key in redis.deposits then Some(redis.deposits[key]) else None;
    }

    /** fetchAllCache: an empty map when the server fails. */
    method FetchAllCache() returns (entries: map<string, Option<string>>)
      ensures redis.outage.Some? ==> entries == map[]
      ensures redis.outage.None? ==> IsFetchAll(entries, redis.deposits, redis.rates)
    {
      if redis.outage.Some? {
        return map[];
      }
      var deposits, rates := redis.deposits, redis.rates;
      if deposits.Keys == {} {
        return map[];
      }
      var order := Ordered(deposits.Keys);
      entries := FetchInOrder(order, deposits, rates);
      FetchedOfAllKeys(order, deposits, rates);
    }

    /** The multiGet of both fields of every key, paired up key by key in the given order. */
    static method FetchInOrder(order: seq<string>, deposits: map<string, string>, rates: map<string, string>)
      returns (entries: map<string, Option<string>>)
      ensures entries == Fetched(order, deposits, rates)
    {
      var depositValues := seq(|order|, j requires 0 <= j < |order| => Get(deposits, order[j]));
      var interestValues := seq(|order|, j requires 0 <= j < |order| => Get(rates, order[j]));
      entries := map[];
      var i := 0;
      while i < |order|
        invariant 0 <= i <= |order|
        invariant entries == Fetched(order[..i], deposits, rates)
      {
        var key := order[i];
        entries := entries[DepositLabel(key) := depositValues[i]][InterestLabel(key) := interestValues[i]];
        assert order[..i + 1][..i] == order[..i];
        i := i + 1;
      }
      assert order[..|order|] == order;
    }

    /** updateCache. */
    method UpdateCache(key: string, value: string)
      modifies redis
      ensures redis.State() == Update(old(redis.State()), key, value)
    {
      if redis.outage.None? {
        redis.deposits := redis.deposits[key := value];
      }
    }

    /** deleteFromCache. */
    method DeleteFromCache(key: string)
      modifies redis
      ensures redis.State() == Delete(old(redis.State()), key)
    {
      if redis.outage.None? {
        redis.deposits := redis.deposits - {key};
      }
    }
  }
}

=== FILE: data_loader.dfy ===
/**
 * RedisDataLoader: at start-up, copy every stored deposit into database 0
 * under its lower-cased type, then copy the interest rates of a CSV file into
 * database 1.  The CSV file arrives already split into rows of fields; a file
 * that cannot be opened is None.
 */
module DataLoading {
  import opened Wrappers
  import opened Text
  import opened Repository
  import opened RedisStore

  // ---------------------------------------------------------------- loadFromDB

  /** The SET commands loadFromDB issues: lower-cased type to amount text, in store order. */
  function DepositWrites(rows: seq<LifestyleDeposit>): seq<(string, string)>
  {
    seq(|rows|, i requires 0 <= i < |rows| => (ToLower(rows[i].lifestyleType), AmountText(rows[i].monthlyDeposit)))
  }

  /**
   * loadFromDB has no handler: when the server fails, the first SET throws and
   * the failure escapes (only if there is a row to write).
   */
  function DbFailure(s: Snapshot, rows: seq<LifestyleDeposit>): Option<string>
  {
    if s.outage.Some? && rows != [] then s.outage else None
  }

  function LoadDb(s: Snapshot, rows: seq<LifestyleDeposit>): Snapshot
  {
    if DbFailure(s, rows).Some? then s else s.(deposits := SetAll(s.deposits, DepositWrites(rows)))
  }

  /**
   * After a successful load each stored type, lower-cased, holds the amount
   * text of the last row with that lower-cased type; other keys are untouched
   * and so are the rates.
   */
  lemma LoadDbLastWins(s: Snapshot, rows: seq<LifestyleDeposit>, i: nat)
    requires DbFailure(s, rows).None? && i < |rows|
    requires forall j :: i < j < |rows| ==> ToLower(rows[j].lifestyleType) != ToLower(rows[i].lifestyleType)
    ensures Get(LoadDb(s, rows).deposits, ToLower(rows[i].lifestyleType)) == Some(AmountText(rows[i].monthlyDeposit))
    ensures LoadDb(s, rows).rates == s.rates
  {
    var writes := DepositWrites(rows);
    assert forall j :: i < j < |writes| ==> writes[j].0 == ToLower(rows[j].lifestyleType);
    SetAllLastWins(s.deposits, writes, i);
  }

  /** A key that is no row's lower-cased type keeps what it held. */
  lemma LoadDbUntouched(s: Snapshot, rows: seq<LifestyleDeposit>, key: string)
    requires forall j :: 0 <= j < |rows| ==> ToLower(rows[j].lifestyleType) != key
    ensures Get(LoadDb(s, rows).deposits, key) == Get(s.deposits, key)
  {
    var writes := DepositWrites(rows);
    assert forall j :: 0 <= j < |writes| ==> writes[j].0 == ToLower(rows[j].lifestyleType);
    SetAllUntouched(s.deposits, writes, key);
  }

  /** Every key the DB load adds is lower-case. */
  lemma LoadDbKeysLower(s: Snapshot, rows: seq<LifestyleDeposit>, key: string)
    requires key in LoadDb(s, rows).deposits && key !in s.deposits
    ensures IsLower(key)
  {
    var writes := DepositWrites(rows);
    if DbFailure(s, rows).None? {
      assert key in WrittenKeys(writes);
      var j :| 0 <= j < |writes| && writes[j].0 == key;
    }
  }

  // ---------------------------------------------------------------- loadFromCSV

  function Min(a: nat, b: nat): nat { if a < b then a else b }

  /** The (header, field) pairs of a row, position by position. */
  function Columns(header: seq<string>, line: seq<string>): seq<(string, string)>
  {
    seq(Min(|header|, |line|), i requires 0 <= i < Min(|header|, |line|) => (header[i], line[i]))
  }

  /**
   * The map built for one row: each header name to the field at its position.
   * A row shorter than the header has no map (the index is out of bounds).
   */
  function RowMap(header: seq<string>, line: seq<string>): Option<map<string, string>>
  {
    if |line| < |header| then None else Some(SetAll(map[], Columns(header, line)))
  }

  /**
   * The rate entry a row yields: its lower-cased lifestyleType field and its
   * interestRate field.  A short row, or a row without either column, yields
   * none and stops the load.
   */
  function RateEntry(header: seq<string>, line: seq<string>): Option<(string, string)>
  {
    match RowMap(header, line)
    case None => None
    case Some(fields) =>
      if "lifestyleType" in fields && "interestRate" in fields
      then Some((ToLower(fields["lifestyleType"]), fields["interestRate"]))
      else None
  }

  /** The rates after loading the rows in order, stopping at the first row that fails. */
  function CsvRates(rates: map<string, string>, outage: Option<string>, header: seq<string>,
                    lines: seq<seq<string>>): map<string, string>
    decreases |lines|
  {
    if lines == [] || outage.Some? then rates
    else match RateEntry(header, lines[0])
      case None => rates
      case Some(entry) => CsvRates(rates[entry.0 := entry.1], outage, header, lines[1..])
  }

  /** Loading from row i on: either the row stops the load, or its SET is followed by the rest. */
  lemma CsvRatesStep(rates: map<string, string>, outage: Option<string>, header: seq<string>,
                     lines: seq<seq<string>>, i: nat)
    requires i < |lines|
    ensures outage.Some? || RateEntry(header, lines[i]).None? ==>
              CsvRates(rates, outage, header, lines[i..]) == rates
    ensures outage.None? && RateEntry(header, lines[i]).Some? ==>
              var entry := RateEntry(header, lines[i]).value;
              CsvRates(rates, outage, header, lines[i..]) == CsvRates(rates[entry.0 := entry.1], outage, header, lines[i + 1..])
  {
    assert lines[i..][0] == lines[i];
    assert lines[i..][1..] == lines[i + 1..];
  }

  /** loadFromCSV: the first row is the header; an empty or missing file loads nothing. */
  function LoadCsv(s: Snapshot, csv: Option<seq<seq<string>>>): Snapshot
  {
    if csv.None? || csv.value == [] then s
    else s.(rates := CsvRates(s.rates, s.outage, csv.value[0], csv.value[1..]))
  }

  /** The CSV load writes only rates; a missing or empty file, or a failing server, changes nothing. */
  lemma LoadCsvWritesOnlyRates(s: Snapshot, csv: Option<seq<seq<string>>>)
    ensures LoadCsv(s, csv).deposits == s.deposits && LoadCsv(s, csv).outage == s.outage
    ensures csv.None? || csv == Some([]) || s.outage.Some? ==> LoadCsv(s, csv) == s
  {
  }

  /** A field is paired with the last header of that name; fields beyond the header are ignored. */
  lemma RowMapField(header: seq<string>, line: seq<string>, i: nat)
    requires |header| <= |line| && i < |header|
    requires forall j :: i < j < |header| ==> header[j] != header[i]
    ensures RowMap(header, line).Some?
    ensures Get(RowMap(header, line).value, header[i]) == Some(line[i])
    ensures RowMap(header, line) == RowMap(header, line[..|header|])
  {
    var columns := Columns(header, line);
    assert forall j :: i < j < |columns| ==> columns[j].0 == header[j];
    SetAllLastWins(map[], columns, i);
    assert Columns(header, line[..|header|]) == columns;
  }

  /** The rows of a file whose every row yields an entry, and the entries they yield. */
  predicate AllRowsLoad(header: seq<string>, lines: seq<seq<string>>)
  {
    forall j {:trigger RateEntry(header, lines[j])} :: 0 <= j < |lines| ==> RateEntry(header, lines[j]).Some?
  }

  function RateWrites(header: seq<string>, lines: seq<seq<string>>): seq<(string, string)>
    requires AllRowsLoad(header, lines)
  {
    seq(|lines|, j requires 0 <= j < |lines| && AllRowsLoad(header, lines) => RateEntry(header, lines[j]).value)
  }

  /** When every row yields an entry and the server is up, the load is the SETs of all entries in order. */
  lemma {:induction false} CsvRatesAllRows(rates: map<string, string>, header: seq<string>, lines: seq<seq<string>>)
    requires AllRowsLoad(header, lines)
    ensures CsvRates(rates, None, header, lines) == SetAll(rates, RateWrites(header, lines))
    decreases |lines|
  {
    if lines != [] {
      var entry := RateEntry(header, lines[0]).value;
      var rest := lines[1..];
      var writes := RateWrites(header, lines);
      RateWritesTail(header, lines);
      calc {
        CsvRates(rates, None, header, lines);
        CsvRates(rates[entry.0 := entry.1], None, header, rest);
        { CsvRatesAllRows(rates[entry.0 := entry.1], header, rest); }
        SetAll(rates[entry.0 := entry.1], RateWrites(header, rest));
        SetAll(rates[writes[0].0 := writes[0].1], writes[1..]);
        { SetAllPrepend(rates, writes); }
        SetAll(rates, writes);
      }
    }
  }

  /** The entries of all rows are the first row's entry followed by those of the rest. */
  lemma RateWritesTail(header: seq<string>, lines: seq<seq<string>>)
    requires AllRowsLoad(header, lines) && lines != []
    ensures AllRowsLoad(header, lines[1..])
    ensures RateWrites(header, lines)[0] == RateEntry(header, lines[0]).value
    ensures RateWrites(header, lines)[1..] == RateWrites(header, lines[1..])
  {
    RestLoads(header, lines);
    TailWrites(header, lines);
  }

  lemma RestLoads(header: seq<string>, lines: seq<seq<string>>)
    requires AllRowsLoad(header, lines) && lines != []
    ensures AllRowsLoad(header, lines[1..])
  {
    forall j | 0 <= j < |lines| - 1 ensures RateEntry(header, lines[1..][j]).Some? {
      assert lines[1..][j] == lines[j + 1];
    }
  }

  lemma TailWrites(header: seq<string>, lines: seq<seq<string>>)
    requires AllRowsLoad(header, lines) && lines != [] && AllRowsLoad(header, lines[1..])
    ensures RateWrites(header, lines)[1..] == RateWrites(header, lines[1..])
  {
    var w, v := RateWrites(header, lines), RateWrites(header, lines[1..]);
    forall j | 0 <= j < |v| ensures w[1..][j] == v[j] {
      TailWriteAt(header, lines, j);
    }
  }

  lemma TailWriteAt(header: seq<string>, lines: seq<seq<string>>, j: nat)
    requires j + 1 < |lines| && AllRowsLoad(header, lines) && AllRowsLoad(header, lines[1..])
    ensures RateWrites(header, lines)[j + 1] == RateWrites(header, lines[1..])[j]
  {
    assert lines[1..][j] == lines[j + 1];
  }

  /** In a well-formed file the last row of each lower-cased type decides its rate. */
  lemma CsvLastWins(rates: map<string, string>, header: seq<string>, lines: seq<seq<string>>, k: nat)
    requires AllRowsLoad(header, lines) && k < |lines|
    requires forall j :: k < j < |lines| ==> RateEntry(header, lines[j]).value.0 != RateEntry(header, lines[k]).value.0
    ensures Get(CsvRates(rates, None, header, lines), RateEntry(header, lines[k]).value.0) ==
            Some(RateEntry(header, lines[k]).value.1)
  {
    CsvRatesAllRows(rates, header, lines);
    var writes := RateWrites(header, lines);
    assert forall j :: k < j < |writes| ==> writes[j].0 == RateEntry(header, lines[j]).value.0;
    SetAllLastWins(rates, writes, k);
  }

  /** A first SET followed by the rest is the SET of all. */
  lemma {:induction false} SetAllPrepend(m: map<string, string>, writes: seq<(string, string)>)
    requires writes != []
    ensures SetAll(m, writes) == SetAll(m[writes[0].0 := writes[0].1], writes[1..])
    decreases |writes|
  {
    if |writes| > 1 {
      var n := |writes| - 1;
      SetAllPrepend(m, writes[..n]);
      PrefixTail(writes, n);
      assert writes[1..][n - 1] == writes[n];
    } else {
      assert writes[..0] == [];
      assert writes[1..] == [];
    }
  }

  /** Rows after one that fails have no effect. */
  lemma {:induction false} CsvStopsAtFailingRow(rates: map<string, string>, outage: Option<string>,
                                                header: seq<string>, lines: seq<seq<string>>, k: nat)
    requires k < |lines| && RateEntry(header, lines[k]).None?
    ensures CsvRates(rates, outage, header, lines) == CsvRates(rates, outage, header, lines[..k])
    decreases k
  {
    if outage.None? && k > 0 {
      match RateEntry(header, lines[0])
      case None =>
      case Some(entry) =>
        assert lines[1..][k - 1] == lines[k];
        CsvStopsAtFailingRow(rates[entry.0 := entry.1], outage, header, lines[1..], k - 1);
        PrefixTail(lines, k);
    }
  }

  /** The first k elements without the first are the rest's first k - 1. */
  lemma PrefixTail<T>(s: seq<T>, k: nat)
    requires 0 < k <= |s|
    ensures s[..k][0] == s[0] && s[..k][1..] == s[1..][..k - 1]
  {
  }

  /** Every key the CSV load adds is lower-case. */
  lemma {:induction false} CsvKeysLower(rates: map<string, string>, outage: Option<string>,
                                        header: seq<string>, lines: seq<seq<string>>, key: string)
    requires key in CsvRates(rates, outage, header, lines) && key !in rates
    ensures IsLower(key)
    decreases |lines|
  {
    if lines != [] && outage.None? {
      match RateEntry(header, lines[0])
      case None =>
      case Some(entry) =>
        if key != entry.0 {
          CsvKeysLower(rates[entry.0 := entry.1], outage, header, lines[1..], key);
        }
    }
  }

  /** The per-row map of loadFromCSV, built field by field; None when the row is too short. */
  method ReadRow(header: seq<string>, line: seq<string>) returns (fields: Option<map<string, string>>)
    ensures fields == RowMap(header, line)
  {
    ghost var columns := Columns(header, line);
    var row: map<string, string> := map[];
    var j := 0;
    while j < |header| && j < |line|
      invariant 0 <= j <= |header| && j <= |line|
      invariant row == SetAll(map[], columns[..j])
    {
      row := row[header[j] := line[j]];
      SetAllStep(map[], columns, j);
      j := j + 1;
    }
    if j < |header| {
      // the header names a column past the end of the row
      return None;
    }
    assert columns[..j] == columns;
    fields := Some(row);
  }

  class RedisDataLoader {
    const redis: Redis
    /** The backing store's rows (RetirementRepository.findAll). */
    const store: seq<LifestyleDeposit>

    constructor (redis: Redis, store: seq<LifestyleDeposit>)
      ensures this.redis == redis && this.store == store
    {
      this.redis := redis;
      this.store := store;
    }

    /** loadFromDB: SET each row's amount text under its lower-cased type; a failure escapes. */
    method LoadFromDB() returns (failure: Option<string>)
      modifies redis
      ensures failure == DbFailure(old(redis.State()), store)
      ensures redis.State() == LoadDb(old(redis.State()), store)
    {
      ghost var writes := DepositWrites(store);
      var i := 0;
      while i < |store|
        invariant 0 <= i <= |store|
        invariant redis.rates == old(redis.rates) && redis.outage == old(redis.outage)
        invariant redis.deposits == SetAll(old(redis.deposits), writes[..i])
        invariant i > 0 ==> redis.outage.None?
      {
        if redis.outage.Some? {
          // the first SET fails and the failure escapes
          assert writes[..i] == [];
          return redis.outage;
        }
        var row := store[i];
        redis.deposits := redis.deposits[ToLower(row.lifestyleType) := AmountText(row.monthlyDeposit)];
        SetAllStep(old(redis.deposits), writes, i);
        i := i + 1;
      }
      assert writes[..|store|] == writes;
      failure := None;
    }

    /** loadFromCSV: SET each row's interest rate under its lower-cased type; any failure stops the load. */
    method LoadFromCSV(csv: Option<seq<seq<string>>>)
      modifies redis
      ensures redis.State() == LoadCsv(old(redis.State()), csv)
    {
      if csv.None? || csv.value == [] {
        return;
      }
      var header, lines := csv.value[0], csv.value[1..];
      ghost var loaded := CsvRates(redis.rates, redis.outage, header, lines);
      assert LoadCsv(redis.State(), csv) == redis.State().(rates := loaded);
      var i := 0;
      while i < |lines|
        invariant 0 <= i <= |lines|
        invariant redis.deposits == old(redis.deposits) && redis.outage == old(redis.outage)
        invariant CsvRates(redis.rates, redis.outage, header, lines[i..]) == loaded
      {
        var fields := ReadRow(header, lines[i]);
        CsvRatesStep(redis.rates, redis.outage, header, lines, i);
        if fields.None? || "lifestyleType" !in fields.value {
          return;
        }
        var key := ToLower(fields.value["lifestyleType"]);
        if "interestRate" !in fields.value || redis.outage.Some? {
          // a null value is refused by SET, and a failing server refuses every SET
          return;
        }
        redis.rates := redis.rates[key := fields.value["interestRate"]];
        i := i + 1;
      }
      assert lines[i..] == [];
    }

    /** loadDataToRedis: the DB load, then (if it did not fail) the CSV load. */
    method LoadDataToRedis(csv: Option<seq<seq<string>>>) returns (failure: Option<string>)
      modifies redis
      ensures failure == DbFailure(old(redis.State()), store)
      ensures redis.State() == Startup(old(redis.State()), store, csv)
    {
      failure := LoadFromDB();
      if failure.None? {
        LoadFromCSV(csv);
      }
    }
  }

  /** The state after start-up: nothing changes if the DB load fails. */
  function Startup(s: Snapshot, rows: seq<LifestyleDeposit>, csv: Option<seq<seq<string>>>): Snapshot
  {
    if DbFailure(s, rows).Some? then s else LoadCsv(LoadDb(s, rows), csv)
  }

  /** The DB load writes only deposits and the CSV load only rates. */
  lemma StartupSeparatesKeySpaces(s: Snapshot, rows: seq<LifestyleDeposit>, csv: Option<seq<seq<string>>>)
    ensures Startup(s, rows, csv).deposits == LoadDb(s, rows).deposits
    ensures LoadDb(s, rows).rates == s.rates
    ensures DbFailure(s, rows).None? ==> Startup(s, rows, csv).rates == LoadCsv(s, csv).rates
  {
    if DbFailure(s, rows).None? {
      LoadCsvWritesOnlyRates(LoadDb(s, rows), csv);
      assert LoadDb(s, rows).rates == s.rates && LoadDb(s, rows).outage == s.outage;
    }
  }
}

=== FILE: decimal.dfy ===
/**
 * Exact decimal numbers with the semantics of java.math.BigDecimal for the
 * operations the retirement projection uses: add, subtract, multiply,
 * integer power, divide to a scale and setScale, both with
 * RoundingMode.HALF_UP, and the comparison with zero.
 *
 * A BigDecimal is an unscaled integer and a scale; its value is
 * unscaled * 10^-scale.  Only non-negative scales occur here (see README).
 */
module Decimals {

  datatype Dec = Dec(unscaled: int, scale: nat)

  /** BigDecimal.ONE */
  const One: Dec := Dec(1, 0)

  function Pow10(k: nat): (p: nat)
    ensures p >= 1
  {
    if k == 0 then 1 else 10 * Pow10(k - 1)
  }

  lemma {:induction false} Pow10Add(a: nat, b: nat)
    ensures Pow10(a + b) == Pow10(a) * Pow10(b)
  {
    if b > 0 {
      Pow10Add(a, b - 1);
      Pow10AddNext(a, b);
    }
  }

  lemma Pow10AddNext(a: nat, b: nat)
    requires b > 0 && Pow10(a + b - 1) == Pow10(a) * Pow10(b - 1)
    ensures Pow10(a + b) == Pow10(a) * Pow10(b)
  {
    assert Pow10(a + b) == 10 * Pow10(a + b - 1);
    TenfoldProduct(Pow10(a + b - 1), Pow10(a), Pow10(b - 1));
  }

  lemma TenfoldProduct(product: int, x: int, y: int)
    requires product == x * y
    ensures 10 * product == x * (10 * y)
  {
  }

  function Abs(x: int): int { if x < 0 then -x else x }

  /** The exact value a decimal stands for. */
  ghost function Value(d: Dec): real
  {
    d.unscaled as real / Pow10(d.scale) as real
  }

  /**
   * Rounding of a real to an integer as java.math.RoundingMode.HALF_UP does it:
   * to the nearest integer, and a tie goes away from zero.
   */
  ghost predicate RoundsHalfUp(x: real, q: int)
  {
    if x >= 0.0 then q as real - 0.5 <= x < q as real + 0.5
    else q as real - 0.5 < x <= q as real + 0.5
  }

  /** At most one integer is the HALF_UP rounding of a real. */
  lemma RoundsHalfUpUnique(x: real, q1: int, q2: int)
    requires RoundsHalfUp(x, q1) && RoundsHalfUp(x, q2)
    ensures q1 == q2
  {
  }

  /** Rounding depends only on the value rounded. */
  lemma RoundsHalfUpOfEqual(x: real, y: real, q: int)
    requires x == y && RoundsHalfUp(y, q)
    ensures RoundsHalfUp(x, q)
  {
  }

  /** A decimal of scale s that is the HALF_UP rounding of x to s fractional digits. */
  ghost predicate HalfUpAt(x: real, s: nat, r: Dec)
  {
    r.scale == s && RoundsHalfUp(x * Pow10(s) as real, r.unscaled)
  }

  lemma DivBounds(a: nat, b: nat)
    requires b > 0
    ensures (a / b) * b <= a < (a / b) * b + b
  {
    assert a == (a / b) * b + a % b;
  }

  lemma RealOfProduct(a: int, b: int)
    ensures (a * b) as real == a as real * b as real
  {
  }

  /** A positive factor keeps the sign of a product. */
  lemma PositiveFactor(e: real, d: real)
    requires d > 0.0
    ensures e * d <= 0.0 ==> e <= 0.0
    ensures e * d < 0.0 ==> e < 0.0
    ensures e * d >= 0.0 ==> e >= 0.0
  {
  }

  /** a / d lies within half of m when 2a + d lies in [2dm, 2dm + 2d). */
  lemma HalfBand(a: real, d: real, m: real)
    requires a >= 0.0 && d > 0.0
    requires m * (2.0 * d) <= 2.0 * a + d < m * (2.0 * d) + 2.0 * d
    ensures a / d >= 0.0
    ensures m - 0.5 <= a / d < m + 0.5
  {
    var x := a / d;
    assert x * d == a;
    assert (2.0 * m - 2.0 * x - 1.0) * d == m * (2.0 * d) - 2.0 * a - d;
    assert (2.0 * x - 2.0 * m - 1.0) * d == 2.0 * a + d - m * (2.0 * d) - 2.0 * d;
    PositiveFactor(2.0 * m - 2.0 * x - 1.0, d);
    PositiveFactor(2.0 * x - 2.0 * m - 1.0, d);
    PositiveFactor(x, d);
  }

  /** For a non-negative numerator the quotient (2a + d) / 2d is a / d rounded HALF_UP. */
  lemma HalfUpOfNatural(a: nat, d: nat)
    requires d > 0
    ensures RoundsHalfUp(a as real / d as real, (2 * a + d) / (2 * d))
  {
    var m := (2 * a + d) / (2 * d);
    DivBounds(2 * a + d, 2 * d);
    RealOfProduct(m, 2 * d);
    HalfBand(a as real, d as real, m as real);
  }

  lemma NegatedQuotient(x: real, d: real)
    requires d != 0.0
    ensures (-x) / d == -(x / d)
    ensures (-x) / (-d) == x / d
  {
    var q := x / d;
    assert q * d == x;
    assert (-q) * d == -x;
    assert q * (-d) == -x;
  }

  /** The integer quotient n / d rounded HALF_UP: to the nearest integer, ties away from zero. */
  function DivHalfUp(n: int, d: int): int
    requires d != 0
    decreases if d < 0 then 1 else 0
  {
    if d < 0 then DivHalfUp(-n, -d)
    else if n >= 0 then (2 * n + d) / (2 * d)
    else -((2 * -n + d) / (2 * d))
  }

  /** DivHalfUp is HALF_UP rounding of the exact quotient. */
  lemma DivHalfUpRounds(n: int, d: int)
    requires d != 0
    ensures RoundsHalfUp(n as real / d as real, DivHalfUp(n, d))
    decreases if d < 0 then 1 else 0
  {
    if d < 0 {
      DivHalfUpRounds(-n, -d);
      NegatedQuotient(n as real, d as real);
    } else if n >= 0 {
      HalfUpOfNatural(n, d);
    } else {
      var m := (2 * -n + d) / (2 * d);
      HalfUpOfNatural(-n, d);
      NegatedQuotient(n as real, d as real);
      assert (-n) as real / d as real == -(n as real / d as real);
      assert m as real - 0.5 <= -(n as real / d as real) < m as real + 0.5;
    }
  }

  /** Real division of scaled integers: (u * k) / (p * k) == u / p. */
  lemma CancelCommonFactor(u: real, p: real, k: real)
    requires p > 0.0 && k > 0.0
    ensures (u * k) / (p * k) == u / p
  {
    var x := u / p;
    assert x * p == u;
    assert x * (p * k) == u * k;
  }

  /** Appending zeros to the unscaled value while raising the scale keeps the value. */
  lemma ScaleUpValue(u: int, s: nat, k: nat)
    ensures Value(Dec(u * Pow10(k), s + k)) == Value(Dec(u, s))
  {
    Pow10Add(s, k);
    RealOfProduct(u, Pow10(k));
    RealOfProduct(Pow10(s), Pow10(k));
    CancelCommonFactor(u as real, Pow10(s) as real, Pow10(k) as real);
  }

  /** The same number written with s >= a.scale fractional digits. */
  function Rescale(a: Dec, s: nat): (r: Dec)
    requires s >= a.scale
    ensures r.scale == s && Value(r) == Value(a)
  {
    ScaleUpValue(a.unscaled, a.scale, s - a.scale);
    Dec(a.unscaled * Pow10(s - a.scale), s)
  }

  lemma SumOverCommon(x: real, y: real, p: real)
    requires p > 0.0
    ensures (x + y) / p == x / p + y / p
    ensures (x - y) / p == x / p - y / p
  {
    var a, b := x / p, y / p;
    assert a * p == x && b * p == y;
    assert (a + b) * p == x + y;
    assert (a - b) * p == x - y;
  }

  function Max(a: nat, b: nat): nat { if a < b then b else a }

  /** BigDecimal.add: exact, at the larger of the two scales. */
  function Add(a: Dec, b: Dec): (r: Dec)
    ensures r.scale == Max(a.scale, b.scale)
    ensures Value(r) == Value(a) + Value(b)
  {
    var s := Max(a.scale, b.scale);
    var x, y := Rescale(a, s), Rescale(b, s);
    SumOverCommon(x.unscaled as real, y.unscaled as real, Pow10(s) as real);
    Dec(x.unscaled + y.unscaled, s)
  }

  /** BigDecimal.subtract: exact, at the larger of the two scales. */
  function Subtract(a: Dec, b: Dec): (r: Dec)
    ensures r.scale == Max(a.scale, b.scale)
    ensures Value(r) == Value(a) - Value(b)
  {
    var s := Max(a.scale, b.scale);
    var x, y := Rescale(a, s), Rescale(b, s);
    SumOverCommon(x.unscaled as real, y.unscaled as real, Pow10(s) as real);
    Dec(x.unscaled - y.unscaled, s)
  }

  lemma ProductOfQuotients(x: real, p: real, y: real, q: real)
    requires p > 0.0 && q > 0.0
    ensures (x / p) * (y / q) == (x * y) / (p * q)
  {
    var a, b := x / p, y / q;
    assert a * p == x && b * q == y;
    assert (a * b) * (p * q) == x * y;
  }

  /** The value of a product of scaled integers. */
  lemma ProductValue(au: int, pa: nat, bu: int, pb: nat, full: int)
    requires pa > 0 && pb > 0 && full == pa * pb
    ensures (au * bu) as real / full as real == (au as real / pa as real) * (bu as real / pb as real)
  {
    RealOfProduct(au, bu);
    RealOfFactors(full, pa, pb);
    ProductOfQuotients(au as real, pa as real, bu as real, pb as real);
  }

  /** BigDecimal.multiply: exact, at the sum of the two scales. */
  function Multiply(a: Dec, b: Dec): (r: Dec)
    ensures r.scale == a.scale + b.scale
    ensures Value(r) == Value(a) * Value(b)
  {
    Pow10Add(a.scale, b.scale);
    ProductValue(a.unscaled, Pow10(a.scale), b.unscaled, Pow10(b.scale), Pow10(a.scale + b.scale));
    Dec(a.unscaled * b.unscaled, a.scale + b.scale)
  }

  ghost function RealPow(x: real, n: nat): real
  {
    if n == 0 then 1.0 else x * RealPow(x, n - 1)
  }

  /** BigDecimal.pow(n) for 0 <= n: exact, at scale n times the base's scale. */
  function Pow(a: Dec, n: nat): (r: Dec)
    ensures r.scale == a.scale * n
    ensures Value(r) == RealPow(Value(a), n)
  {
    if n == 0 then One
    else
      var rest := Pow(a, n - 1);
      PowStep(a, rest, n);
      Multiply(a, rest)
  }

  /** One more factor of the base: the next power's scale and value. */
  lemma PowStep(a: Dec, rest: Dec, n: nat)
    requires n > 0 && rest.scale == a.scale * (n - 1) && Value(rest) == RealPow(Value(a), n - 1)
    ensures Multiply(a, rest).scale == a.scale * n
    ensures Value(Multiply(a, rest)) == RealPow(Value(a), n)
  {
    ScaleOfPower(a.scale, n);
  }

  lemma ScaleOfPower(scale: nat, n: nat)
    requires n > 0
    ensures scale * n == scale + scale * (n - 1)
  {
  }

  lemma QuotientTimesDivisor(u: real, p: real)
    requires p > 0.0
    ensures (u / p) * p == u
  {
  }

  lemma ZeroQuotient(u: real, p: real)
    requires p > 0.0
    ensures u / p == 0.0 <==> u == 0.0
  {
    var z := u / p;
    assert z * p == u;
  }

  lemma ValueZero(a: Dec)
    ensures Value(a) == 0.0 <==> a.unscaled == 0
  {
    ZeroQuotient(a.unscaled as real, Pow10(a.scale) as real);
  }

  /** The quotient (x / p) / (y / q) * k with all parts scaled integers. */
  lemma QuotientOfQuotients(x: real, p: real, y: real, q: real, k: real)
    requires p > 0.0 && q > 0.0 && k > 0.0 && y != 0.0
    ensures (x / p) / (y / q) * k == (x * k * q) / (y * p)
  {
    var a, b := x / p, y / q;
    assert a * p == x && b * q == y;
    assert b != 0.0;
    var c := a / b * k;
    assert c * b == a * k;
    assert c * (y * p) == (x * k * q);
  }

  /** (au / pa) / (bu / pb) * ps as one quotient of integers. */
  lemma QuotientOfScaledIntegers(au: int, pa: nat, bu: int, pb: nat, ps: nat)
    requires pa > 0 && pb > 0 && ps > 0 && bu != 0
    ensures bu * pa != 0
    ensures (au * ps * pb) as real / (bu * pa) as real
            == (au as real / pa as real) / (bu as real / pb as real) * ps as real
  {
    RealOfProduct(au * ps, pb);
    RealOfProduct(au, ps);
    RealOfProduct(bu, pa);
    assert (bu * pa) as real != 0.0;
    QuotientOfQuotients(au as real, pa as real, bu as real, pb as real, ps as real);
  }

  /** HalfUpAt at scale s is rounding of the value shifted by s digits. */
  lemma HalfUpAtShifted(x: real, s: nat, q: int)
    requires RoundsHalfUp(x * Pow10(s) as real, q)
    ensures HalfUpAt(x, s, Dec(q, s))
  {
  }

  /** When x shifted by s digits is the quotient n / d, DivHalfUp(n, d) rounds x to s digits. */
  lemma RoundsAtScale(x: real, n: int, d: int, s: nat)
    requires d != 0 && x * Pow10(s) as real == n as real / d as real
    ensures HalfUpAt(x, s, Dec(DivHalfUp(n, d), s))
  {
    DivHalfUpRounds(n, d);
    ShiftedRounds(x, s, n as real / d as real, DivHalfUp(n, d));
  }

  lemma ShiftedRounds(x: real, s: nat, shifted: real, q: int)
    requires x * Pow10(s) as real == shifted && RoundsHalfUp(shifted, q)
    ensures HalfUpAt(x, s, Dec(q, s))
  {
    RoundsHalfUpOfEqual(x * Pow10(s) as real, shifted, q);
    HalfUpAtShifted(x, s, q);
  }

  /**
   * With va = au / pa and vb = bu / pb, the HALF_UP quotient of the scaled
   * integers au * 10^s * pb and bu * pa is va / vb rounded to s digits.
   */
  lemma ScaledQuotientRounds(va: real, vb: real, au: int, pa: nat, bu: int, pb: nat, s: nat)
    requires pa > 0 && pb > 0 && bu != 0
    requires va == au as real / pa as real && vb == bu as real / pb as real
    ensures vb != 0.0 && bu * pa != 0
    ensures HalfUpAt(va / vb, s, Dec(DivHalfUp(au * Pow10(s) * pb, bu * pa), s))
  {
    ZeroQuotient(bu as real, pb as real);
    QuotientOfScaledIntegers(au, pa, bu, pb, Pow10(s));
    RoundsAtScale(va / vb, au * Pow10(s) * pb, bu * pa, s);
  }

  /**
   * BigDecimal.divide(divisor, s, RoundingMode.HALF_UP): the exact quotient
   * rounded to s fractional digits.  Java throws ArithmeticException for a zero
   * divisor; every caller in the model has excluded it.
   */
  function Divide(a: Dec, b: Dec, s: nat): (r: Dec)
    requires b.unscaled != 0
    ensures Value(b) != 0.0
    ensures HalfUpAt(Value(a) / Value(b), s, r)
  {
    ScaledQuotientRounds(Value(a), Value(b), a.unscaled, Pow10(a.scale), b.unscaled, Pow10(b.scale), s);
    Dec(DivHalfUp(a.unscaled * Pow10(s) * Pow10(b.scale), b.unscaled * Pow10(a.scale)), s)
  }

  /** u / (pk * ps) shifted by ps is u / pk. */
  lemma ShrinkInts(u: int, full: int, pk: int, ps: int)
    requires pk > 0 && ps > 0 && full == pk * ps
    ensures (u as real / full as real) * ps as real == u as real / pk as real
  {
    RealOfFactors(full, pk, ps);
    ShrinkReal(u as real, pk as real, ps as real, full as real);
  }

  lemma ShrinkReal(u: real, pk: real, ps: real, full: real)
    requires pk > 0.0 && ps > 0.0 && full == pk * ps
    ensures (u / full) * ps == u / pk
  {
    var v := u / full;
    assert v * (pk * ps) == u;
    assert (v * ps) * pk == u;
  }

  /** Dropping k = a.scale - s digits: the integers whose quotient SetScale rounds. */
  lemma ShrinkOperands(a: Dec, s: nat)
    requires s < a.scale
    ensures Value(a) * Pow10(s) as real == a.unscaled as real / Pow10(a.scale - s) as real
  {
    Pow10Cut(a.scale, s);
    ShrinkInts(a.unscaled, Pow10(a.scale), Pow10(a.scale - s), Pow10(s));
  }

  lemma RealOfFactors(product: int, a: int, b: int)
    requires product == a * b
    ensures product as real == a as real * b as real
  {
  }

  lemma Pow10Cut(total: nat, s: nat)
    requires s <= total
    ensures Pow10(total) == Pow10(total - s) * Pow10(s)
  {
    var k := total - s;
    Pow10Add(k, s);
    assert k + s == total;
  }

  /** Raising the scale is exact, so it is its own HALF_UP rounding. */
  lemma RescaleRounds(a: Dec, s: nat)
    requires s >= a.scale
    ensures HalfUpAt(Value(a), s, Rescale(a, s))
  {
    ExactRounds(Rescale(a, s));
  }

  /** A decimal is its own HALF_UP rounding at its own scale. */
  lemma ExactRounds(r: Dec)
    ensures HalfUpAt(Value(r), r.scale, r)
  {
    QuotientTimesDivisor(r.unscaled as real, Pow10(r.scale) as real);
    IntegerRoundsToItself(r.unscaled);
    ShiftedRounds(Value(r), r.scale, r.unscaled as real, r.unscaled);
  }

  lemma IntegerRoundsToItself(q: int)
    ensures RoundsHalfUp(q as real, q)
  {
  }

  /** Lowering the scale rounds the unscaled value by a power of ten. */
  lemma ShrinkRounds(a: Dec, s: nat)
    requires s < a.scale
    ensures HalfUpAt(Value(a), s, Dec(DivHalfUp(a.unscaled, Pow10(a.scale - s)), s))
  {
    ShrinkOperands(a, s);
    RoundsAtScale(Value(a), a.unscaled, Pow10(a.scale - s), s);
  }

  /**
   * BigDecimal.setScale(s, RoundingMode.HALF_UP): exact when s does not drop
   * digits, HALF_UP rounding to s fractional digits otherwise.
   */
  function SetScale(a: Dec, s: nat): (r: Dec)
    ensures HalfUpAt(Value(a), s, r)
    ensures s >= a.scale ==> Value(r) == Value(a)
  {
    if s >= a.scale then
      RescaleRounds(a, s);
      Rescale(a, s)
    else
      ShrinkRounds(a, s);
      Dec(DivHalfUp(a.unscaled, Pow10(a.scale - s)), s)
  }

  /** compareTo(BigDecimal.ZERO) == 0: zero whatever the scale. */
  function IsZero(a: Dec): (z: bool)
    ensures z <==> Value(a) == 0.0
  {
    a.unscaled == 0
  }
}

=== FILE: decimal_text.dfy ===
/**
 * Decimal numbers as text: the BigDecimal(String) constructor, which the
 * projection applies to cached strings, and the plain rendering of an amount
 * that the loader and the cache refresh write into the cache.
 */
module DecimalText {
  import opened Wrappers
  import opened Text
  import opened Decimals

  /** The text before the first '.', and the text after it when there is one. */
  function SplitAtPoint(s: string): (r: (string, Option<string>))
    ensures |r.0| <= |s|
  {
    if s == [] then ([], None)
    else if s[0] == '.' then ([], Some(s[1..]))
    else
      var rest := SplitAtPoint(s[1..]);
      ([s[0]] + rest.0, rest.1)
  }

  predicate IsExponentMark(c: char) { c == 'e' || c == 'E' }

  /** Index of the first 'e' or 'E' in s, or |s| when there is none. */
  function ExponentMark(s: string): (i: nat)
    ensures i <= |s|
    ensures i < |s| ==> IsExponentMark(s[i])
  {
    if s == [] then 0 else if IsExponentMark(s[0]) then 0 else 1 + ExponentMark(s[1..])
  }

  /** The exponent written after 'e' or 'E': an optional sign and at least one digit. */
  function Exponent(t: string): (r: Option<int>)
    ensures r.Some? ==> |t| > 0
  {
    var neg := |t| > 0 && t[0] == '-';
    var digits := if |t| > 0 && (t[0] == '-' || t[0] == '+') then t[1..] else t;
    if digits == [] || !AllDigits(digits) then None
    else
      var v: int := DigitsValue(digits);
      Some(if neg then -v else v)
  }

  /** Digits with at most one '.', at least one digit: the digits' value and how many follow the point. */
  function ParseMantissa(mant: string): Option<(nat, nat)>
  {
    var parts := SplitAtPoint(mant);
    var intPart := parts.0;
    var frac := if parts.1.Some? then parts.1.value else [];
    if !AllDigits(intPart) || !AllDigits(frac) || |intPart| + |frac| == 0 then None
    else
      assert AllDigits(intPart + frac);
      Some((DigitsValue(intPart + frac), |frac|))
  }

  /** Java's int range. */
  predicate InIntRange(x: int) { -0x8000_0000 <= x <= 0x7FFF_FFFF }

  /**
   * The unsigned part of a BigDecimal string: a mantissa and an optional
   * exponent.  The exponent must fit an int ("Exponent overflow"), and a
   * non-zero exponent must leave the scale, fraction digits less exponent, in
   * the int range ("Scale out of range").  A negative resulting scale is
   * written with scale 0 and the same value.
   */
  function ParseUnsigned(body: string): (r: Option<Dec>)
    ensures r.Some? && ExponentMark(body) < |body| ==>
      var exp := Exponent(body[ExponentMark(body) + 1..]);
      exp.Some? && InIntRange(exp.value) && (exp.value != 0 ==> r.value.scale <= 0x7FFF_FFFF)
  {
    var e := ExponentMark(body);
    var exp := if e < |body| then Exponent(body[e + 1..]) else Some(0);
    match ParseMantissa(body[..e])
    case None => None
    case Some((u, fracDigits)) =>
      if exp.None? || !InIntRange(exp.value) then None
      else
        var scale := fracDigits - exp.value;
        if exp.value != 0 && !InIntRange(scale) then None
        else Some(if scale >= 0 then Dec(u, scale) else Dec(u * Pow10(-scale), 0))
  }

  /**
   * new BigDecimal(s): an optional '+' or '-' before the unsigned part.  None
   * stands for the NumberFormatException Java throws on any other text.
   */
  function Parse(s: string): (r: Option<Dec>)
  {
    var neg := |s| > 0 && s[0] == '-';
    var body := if |s| > 0 && (s[0] == '-' || s[0] == '+') then s[1..] else s;
    match ParseUnsigned(body)
    case None => None
    case Some(m) => Some(if neg then Dec(-m.unscaled, m.scale) else m)
  }

  /**
   * The digits of the unscaled value's magnitude, padded with leading zeros so
   * that at least one digit precedes the point.
   */
  function PlainDigits(d: Dec): (padded: string)
    ensures |padded| > d.scale && AllDigits(padded)
    ensures DigitsValue(padded) == Abs(d.unscaled)
  {
    var digits := NatToString(Abs(d.unscaled));
    if |digits| <= d.scale then
      LeadingZeros(d.scale + 1 - |digits|, digits);
      Zeros(d.scale + 1 - |digits|) + digits
    else digits
  }

  /** The unsigned plain text: the point, if any, before the last `scale` digits. */
  function PlainBody(d: Dec): (body: string)
    ensures |body| > 0 && IsDigit(body[0])
    ensures forall j :: 0 <= j < |body| ==> IsDigit(body[j]) || body[j] == '.'
  {
    var padded := PlainDigits(d);
    var cut := |padded| - d.scale;
    if d.scale == 0 then padded else padded[..cut] + "." + padded[cut..]
  }

  /** BigDecimal.toPlainString for a non-negative scale: a '-' when negative, then the plain body. */
  function ToPlain(d: Dec): (r: string)
    ensures |r| > 0
  {
    if d.unscaled < 0 then ['-'] + PlainBody(d) else PlainBody(d)
  }

  /** A '-' followed by digits is the negated value of the digits. */
  lemma NegativeExponent(t: string, digits: string)
    requires |t| > 0 && t[0] == '-' && t[1..] == digits
    requires |digits| > 0 && AllDigits(digits)
    ensures Exponent(t) == Some(-(DigitsValue(digits) as int))
  {
  }

  /** A single digit is a mantissa with nothing after the point. */
  lemma SingleDigitMantissa(c: char)
    requires IsDigit(c)
    ensures ParseMantissa([c]) == Some((c as int - '0' as int, 0))
  {
    var rest := SplitAtPoint([c][1..]);
    assert [c][1..] == [] && rest == ([], None);
    assert SplitAtPoint([c]) == ([c] + rest.0, rest.1);
    assert [c] + rest.0 == [c];
    assert DigitsValue([c]) == c as int - '0' as int by {
      assert [c][..0] == [];
    }
  }

  /** Digits and points only: no exponent mark. */
  lemma {:induction false} NoExponentMark(body: string)
    requires forall j :: 0 <= j < |body| ==> IsDigit(body[j]) || body[j] == '.'
    ensures ExponentMark(body) == |body|
  {
    if body != [] {
      NoExponentMark(body[1..]);
    }
  }

  /** Text without an exponent mark reads as its mantissa at scale "digits after the point". */
  lemma ParseWithoutExponent(body: string, u: nat, k: nat)
    requires forall j :: 0 <= j < |body| ==> IsDigit(body[j]) || body[j] == '.'
    requires ParseMantissa(body) == Some((u, k))
    ensures ParseUnsigned(body) == Some(Dec(u, k))
  {
    NoExponentMark(body);
    assert body[..|body|] == body;
  }

  /** A digit string with no point spells its value with nothing after the point. */
  lemma MantissaDigits(padded: string)
    requires |padded| > 0 && AllDigits(padded)
    ensures ParseMantissa(padded) == Some((DigitsValue(padded), 0))
  {
    SplitWithoutPoint(padded);
    assert padded + [] == padded;
  }

  /** Digits with a point before the last k of them spell their value with k after the point. */
  lemma MantissaPointed(padded: string, k: nat)
    requires 0 < k < |padded| && AllDigits(padded)
    ensures ParseMantissa(padded[..|padded| - k] + "." + padded[|padded| - k..])
            == Some((DigitsValue(padded), k))
  {
    DigitParts(padded, |padded| - k);
    ParsePointed(padded[..|padded| - k], padded[|padded| - k..]);
  }

  /** Both parts of a digit string cut anywhere are digit strings, and together they are the string. */
  lemma DigitParts(digits: string, cut: nat)
    requires cut <= |digits| && AllDigits(digits)
    ensures AllDigits(digits[..cut]) && AllDigits(digits[cut..])
    ensures digits[..cut] + digits[cut..] == digits
  {
    assert forall j :: 0 <= j < cut ==> digits[..cut][j] == digits[j];
    assert forall j :: 0 <= j < |digits| - cut ==> digits[cut..][j] == digits[cut + j];
  }

  /** Digits, a point and digits read as the value of all the digits, with those after the point counted. */
  lemma ParsePointed(intPart: string, frac: string)
    requires AllDigits(intPart) && AllDigits(frac) && |intPart| + |frac| > 0
    ensures ParseMantissa(intPart + "." + frac) == Some((DigitsValue(intPart + frac), |frac|))
  {
    SplitPointed(intPart, frac);
  }

  /** Text without a point is all integer part. */
  lemma {:induction false} SplitWithoutPoint(s: string)
    requires forall j :: 0 <= j < |s| ==> s[j] != '.'
    ensures SplitAtPoint(s) == (s, None)
  {
    if s != [] {
      SplitWithoutPoint(s[1..]);
      assert [s[0]] + s[1..] == s;
    }
  }

  /** Text without a point, a point, then more text: split at that point. */
  lemma {:induction false} SplitPointed(intPart: string, frac: string)
    requires forall j :: 0 <= j < |intPart| ==> intPart[j] != '.'
    ensures SplitAtPoint(intPart + "." + frac) == (intPart, Some(frac))
  {
    var s := intPart + "." + frac;
    if intPart == [] {
      assert s[1..] == frac;
    } else {
      assert s[1..] == intPart[1..] + "." + frac;
      SplitPointed(intPart[1..], frac);
      assert [intPart[0]] + intPart[1..] == intPart;
    }
  }

  /** The plain body reads back as the magnitude at the same scale. */
  lemma ParsePlainBody(d: Dec)
    ensures ParseUnsigned(PlainBody(d)) == Some(Dec(Abs(d.unscaled), d.scale))
  {
    PlainMantissa(d);
    ParseWithoutExponent(PlainBody(d), Abs(d.unscaled), d.scale);
  }

  /** The plain body's mantissa is the magnitude's digits with `scale` of them after the point. */
  lemma PlainMantissa(d: Dec)
    ensures ParseMantissa(PlainBody(d)) == Some((Abs(d.unscaled), d.scale))
  {
    if d.scale == 0 {
      assert PlainBody(d) == PlainDigits(d);
      MantissaDigits(PlainDigits(d));
    } else {
      assert PlainBody(d) == PlainDigits(d)[..|PlainDigits(d)| - d.scale] + "." +
                             PlainDigits(d)[|PlainDigits(d)| - d.scale..];
      MantissaPointed(PlainDigits(d), d.scale);
    }
  }

  /** A sign before text that starts with a digit: Parse reads the rest unsigned. */
  lemma ParseSigned(body: string, u: nat, k: nat)
    requires |body| > 0 && IsDigit(body[0])
    requires ParseUnsigned(body) == Some(Dec(u, k))
    ensures Parse(body) == Some(Dec(u, k))
    ensures Parse(['-'] + body) == Some(Dec(0 - u, k))
  {
    ParseUnsignedText(body, Dec(u, k));
    assert (['-'] + body)[1..] == body;
    ParseNegative(['-'] + body, body, Dec(u, k));
  }

  /** Text without a leading sign reads as its unsigned part. */
  lemma ParseUnsignedText(s: string, m: Dec)
    requires |s| > 0 && s[0] != '-' && s[0] != '+'
    requires ParseUnsigned(s) == Some(m)
    ensures Parse(s) == Some(m)
  {
  }

  /** Text after a leading '-' that reads unsigned as m reads as -m. */
  lemma ParseNegative(s: string, body: string, m: Dec)
    requires |s| > 0 && s[0] == '-' && s[1..] == body
    requires ParseUnsigned(body) == Some(m)
    ensures Parse(s) == Some(Dec(-m.unscaled, m.scale))
  {
  }

  /** Reading back the plain rendering of a decimal gives the same decimal. */
  lemma ParsePlain(d: Dec)
    ensures Parse(ToPlain(d)) == Some(d)
  {
    ParsePlainBody(d);
    ParseSigned(PlainBody(d), Abs(d.unscaled), d.scale);
  }

  /** Text that does not begin with a sign, a digit or a point is not a number. */
  lemma ParseRejects(s: string)
    requires |s| > 0 && s[0] != '-' && s[0] != '+' && s[0] != '.' && !IsDigit(s[0])
    ensures Parse(s) == None
  {
    var e := ExponentMark(s);
    if e > 0 {
      var mant := s[..e];
      assert mant[0] == s[0];
      assert SplitAtPoint(mant).0[0] == s[0];
    }
  }
}

=== FILE: interplay.dfy ===
/**
 * How the three components meet in Redis: the start-up loader fills the two
 * databases, the cache service rewrites database 0, and the calculation reads
 * both under the lower-cased lifestyle type.
 */
module Interplay {
  import opened Wrappers
  import opened Text
  import opened Repository
  import opened RedisStore
  import opened RetirementService
  import opened Caching
  import opened DataLoading

  /**
   * After a successful start-up the calculation reads, for any spelling of a
   * stored type, the amount of the last stored row with that type (ignoring
   * case), and it fails with the generic error when that amount is missing.
   */
  lemma StartupServesStoredDeposit(s: Snapshot, rows: seq<LifestyleDeposit>, csv: Option<seq<seq<string>>>,
                                   dto: Retirement, i: nat)
    requires DbFailure(s, rows).None? && i < |rows|
    requires ToLower(dto.lifestyleType) == ToLower(rows[i].lifestyleType)
    requires forall j :: i < j < |rows| ==> ToLower(rows[j].lifestyleType) != ToLower(rows[i].lifestyleType)
    ensures LookupKey(dto) in Startup(s, rows, csv).deposits
    ensures CachedDeposit(dto, Startup(s, rows, csv).deposits) == rows[i].monthlyDeposit
  {
    LoadDbLastWins(s, rows, i);
    StartupSeparatesKeySpaces(s, rows, csv);
    if rows[i].monthlyDeposit.None? {
      NullAmountIsNotANumber();
    }
  }

  /**
   * After start-up, a lifestyle type whose last CSV row is well formed is
   * calculated with that row's rate when the caller gives none.
   */
  lemma StartupServesCsvRate(s: Snapshot, rows: seq<LifestyleDeposit>, header: seq<string>,
                             lines: seq<seq<string>>, dto: Retirement, k: nat)
    requires DbFailure(s, rows).None? && s.outage.None?
    requires AllRowsLoad(header, lines) && k < |lines|
    requires LookupKey(dto) == RateEntry(header, lines[k]).value.0
    requires forall j :: k < j < |lines| ==> RateEntry(header, lines[j]).value.0 != LookupKey(dto)
    requires dto.interestRate.None?
    ensures LookupKey(dto) in Startup(s, rows, Some([header] + lines)).rates
    ensures EffectiveRate(dto, Startup(s, rows, Some([header] + lines)).rates) ==
            ChooseRate(None, RateEntry(header, lines[k]).value.1)
  {
    var csv := [header] + lines;
    assert csv[0] == header && csv[1..] == lines;
    StartupSeparatesKeySpaces(s, rows, Some(csv));
    CsvLastWins(s.rates, header, lines, k);
    var rates := Startup(s, rows, Some(csv)).rates;
    assert rates == CsvRates(s.rates, None, header, lines);
    RateServed(dto, rates, RateEntry(header, lines[k]).value.1);
  }

  /** A request without a rate is calculated with the rate cached under its key. */
  lemma RateServed(dto: Retirement, rates: map<string, string>, text: string)
    requires dto.interestRate.None? && Get(rates, LookupKey(dto)) == Some(text)
    ensures LookupKey(dto) in rates && EffectiveRate(dto, rates) == ChooseRate(None, text)
  {
  }

  /**
   * refreshCache writes a descriptive line, not a number, under the key the
   * calculation reads, so once a stored type is refreshed every valid request
   * for it fails with the generic error until the entry is reloaded.
   */
  lemma RefreshedEntryBreaksCalculation(s: Snapshot, key: string, rows: seq<LifestyleDeposit>, dto: Retirement)
    requires s.outage.None? && FindByLifestyleType(rows, key).Some?
    requires AgeError(dto.currentAge, dto.retirementAge).None?
    requires LookupKey(dto) == key && key in s.rates
    ensures CalculatePlan(dto, Refresh(s, key, rows).after.deposits, s.rates, true) == Err(CalculationFailed)
  {
    var row := FindByLifestyleType(rows, key).value;
    var after := Refresh(s, key, rows).after.deposits;
    assert after[key] == DepositText(row);
    DepositTextNotANumber(row);
    UnparsableCacheFails(dto, after, s.rates);
  }

  /**
   * refreshAllCache keys each entry by the stored type as spelled, so a stored
   * type with a capital letter can no longer be calculated: with no other
   * stored type of the same lower-case spelling its request is not found.
   */
  lemma RefreshAllHidesCapitalisedTypes(s: Snapshot, rows: seq<LifestyleDeposit>, dto: Retirement, i: nat)
    requires s.outage.None? && i < |rows|
    requires AgeError(dto.currentAge, dto.retirementAge).None?
    requires LookupKey(dto) == ToLower(rows[i].lifestyleType)
    requires forall j :: 0 <= j < |rows| ==> rows[j].lifestyleType != LookupKey(dto)
    ensures CalculatePlan(dto, RefreshAll(s, rows).after.deposits, s.rates, true) ==
            Err(LifestyleNotFound(dto.lifestyleType))
  {
    RefreshAllKeys(s, rows);
    var deposits := RefreshAll(s, rows).after.deposits;
    assert LookupKey(dto) !in deposits;
    MissingEntryNotFound(dto, deposits, s.rates);
  }
}

=== FILE: redis_store.dfy ===
/**
 * Redis as the core sees it through its two StringRedisTemplate beans:
 * database 0 holds the monthly deposits and database 1 the interest rates,
 * both as text under a lifestyle-type key.  When `outage` is Some(message),
 * every command fails with that message (a connection failure); otherwise
 * every command succeeds.
 */
module RedisStore {
  import opened Wrappers

  /** The observable contents of the server at one moment. */
  datatype Snapshot = Snapshot(deposits: map<string, string>, rates: map<string, string>, outage: Option<string>)

  /** GET: the text under a key, or null (None). */
  function Get(m: map<string, string>, key: string): (r: Option<string>)
    ensures r.Some? <==> key in m
    ensures r.Some? ==> r.value == m[key]
  {
    if key in m then Some(m[key]) else None
  }

  /** The keys written by a sequence of SET commands. */
  function WrittenKeys(writes: seq<(string, string)>): (keys: set<string>)
    ensures forall i :: 0 <= i < |writes| ==> writes[i].0 in keys
    ensures forall k :: k in keys ==> exists i :: 0 <= i < |writes| && writes[i].0 == k
  {
    set i | 0 <= i < |writes| :: writes[i].0
  }

  /** The contents after a SET of each (key, value) pair, in order. */
  function SetAll(m: map<string, string>, writes: seq<(string, string)>): (r: map<string, string>)
    ensures r.Keys == m.Keys + WrittenKeys(writes)
  {
    if writes == [] then m
    else
      var last := writes[|writes| - 1];
      assert WrittenKeys(writes) == WrittenKeys(writes[..|writes| - 1]) + {last.0} by {
        assert forall i :: 0 <= i < |writes| - 1 ==> writes[..|writes| - 1][i] == writes[i];
      }
      SetAll(m, writes[..|writes| - 1])[last.0 := last.1]
  }

  /** A key holds the value of its last SET. */
  lemma {:induction false} SetAllLastWins(m: map<string, string>, writes: seq<(string, string)>, i: nat)
    requires i < |writes|
    requires forall j :: i < j < |writes| ==> writes[j].0 != writes[i].0
    ensures SetAll(m, writes)[writes[i].0] == writes[i].1
  {
    if i < |writes| - 1 {
      var prefix := writes[..|writes| - 1];
      assert prefix[i] == writes[i];
      assert forall j :: i < j < |prefix| ==> prefix[j] == writes[j];
      SetAllLastWins(m, prefix, i);
    }
  }

  /** A key never written keeps its old contents (or stays absent). */
  lemma {:induction false} SetAllUntouched(m: map<string, string>, writes: seq<(string, string)>, key: string)
    requires forall j :: 0 <= j < |writes| ==> writes[j].0 != key
    ensures Get(SetAll(m, writes), key) == Get(m, key)
  {
    if writes != [] {
      var prefix := writes[..|writes| - 1];
      assert forall j :: 0 <= j < |prefix| ==> prefix[j] == writes[j];
      SetAllUntouched(m, prefix, key);
    }
  }

  /** One more SET extends the sequence of writes. */
  lemma SetAllStep(m: map<string, string>, writes: seq<(string, string)>, i: nat)
    requires i < |writes|
    ensures SetAll(m, writes[..i + 1]) == SetAll(m, writes[..i])[writes[i].0 := writes[i].1]
  {
    assert writes[..i + 1][..i] == writes[..i];
  }

  /** The Redis server, whose two databases the core reads and writes in place. */
  class Redis {
    var deposits: map<string, string>
    var rates: map<string, string>
    var outage: Option<string>

    constructor (deposits: map<string, string>, rates: map<string, string>, outage: Option<string>)
      ensures State() == Snapshot(deposits, rates, outage)
    {
      this.deposits := deposits;
      this.rates := rates;
      this.outage := outage;
    }

    function State(): Snapshot
      reads this
    {
      Snapshot(deposits, rates, outage)
    }
  }
}

=== FILE: repository.dfy ===
/**
 * The persisted lifestyle deposits and the two queries the core makes of
 * them (RetirementRepository.findByLifestyleType and findAll).  The table
 * itself is a sequence of rows in storage order.
 */
module Repository {
  import opened Wrappers
  import opened Decimals
  import opened DecimalText

  /** A LifestyleDeposit row; the monthly deposit column may be null. */
  datatype LifestyleDeposit = LifestyleDeposit(lifestyleType: string, monthlyDeposit: Option<Dec>)

  /** The text Java concatenates for the amount: "null" for a missing one. */
  function AmountText(amount: Option<Dec>): (t: string)
    ensures amount.Some? ==> Parse(t) == amount
  {
    match amount
    case None => "null"
    case Some(d) => ParsePlain(d); ToPlain(d)
  }

  /** A missing amount is written as text that is not a number. */
  lemma NullAmountIsNotANumber()
    ensures Parse(AmountText(None)) == None
  {
    ParseRejects("null");
  }

  /** The unique constraint on the lifestyleType column. */
  predicate UniqueTypes(rows: seq<LifestyleDeposit>)
  {
    forall i, j :: 0 <= i < j < |rows| ==> rows[i].lifestyleType != rows[j].lifestyleType
  }

  /** findByLifestyleType(key): the row whose type equals key, if any. */
  function FindByLifestyleType(rows: seq<LifestyleDeposit>, key: string): (r: Option<LifestyleDeposit>)
    ensures r.Some? ==> r.value in rows && r.value.lifestyleType == key
    ensures r.None? <==> forall i :: 0 <= i < |rows| ==> rows[i].lifestyleType != key
  {
    if rows == [] then None
    else if rows[0].lifestyleType == key then Some(rows[0])
    else FindByLifestyleType(rows[1..], key)
  }

  /** Under the unique constraint the row found is the only row with that type. */
  lemma {:induction false} FindUnique(rows: seq<LifestyleDeposit>, i: nat)
    requires UniqueTypes(rows) && i < |rows|
    ensures FindByLifestyleType(rows, rows[i].lifestyleType) == Some(rows[i])
  {
    if i > 0 {
      assert rows[0].lifestyleType != rows[i].lifestyleType;
      assert rows[1..][i - 1] == rows[i];
      FindUnique(rows[1..], i - 1);
    }
  }
}

=== FILE: retirement_service.dfy ===
/**
 * RetirementService.calculatePlan: validate the ages, look the lower-cased
 * lifestyle type up in the deposit and interest-rate key-spaces, choose the
 * rate, and project the future value of the monthly deposits with BigDecimal
 * arithmetic.  The two key-spaces are parameters; `reachable` says whether
 * the cache answers at all.
 */
module RetirementService {
  import opened Wrappers
  import opened Text
  import opened Decimals
  import opened DecimalText

  /** The request (entity Retirement); a null interest rate is None. */
  datatype Retirement = Retirement(
    currentAge: int,
    retirementAge: int,
    interestRate: Option<Dec>,
    lifestyleType: string)

  /** The response (entity RetirementResult). */
  datatype RetirementResult = RetirementResult(
    currentAge: int,
    retirementAge: int,
    interestRate: Dec,
    lifestyleType: string,
    monthlyDeposit: Dec,
    futureValue: Dec)

  /** InvalidInputException, LifestyleNotFoundException and CalculationException. */
  datatype CalcError =
    | InvalidInput(field: string, reason: string)
    | LifestyleNotFound(lifestyleType: string)
    | CalculationFailed

  function ErrorCode(e: CalcError): string
  {
    match e
    case InvalidInput(_, _) => "RC-400"
    case LifestyleNotFound(_) => "RC-404"
    case CalculationFailed => "RC-500"
  }

  /** Each error kind has its own code. */
  lemma ErrorCodeIdentifiesKind(e1: CalcError, e2: CalcError)
    ensures ErrorCode(e1) == ErrorCode(e2) <==>
      (e1.InvalidInput? && e2.InvalidInput?) ||
      (e1.LifestyleNotFound? && e2.LifestyleNotFound?) ||
      (e1.CalculationFailed? && e2.CalculationFailed?)
  {
    assert "RC-400"[5] == '0' && "RC-404"[5] == '4' && "RC-500"[3] == '5';
  }

  /** An age below this is refused. */
  const MinimumAge: int := 17

  /** The first age check that fails, in the order the service makes them. */
  function AgeError(currentAge: int, retirementAge: int): (r: Option<CalcError>)
    ensures r.None? <==> MinimumAge <= currentAge < retirementAge
    ensures r.Some? ==> r.value.InvalidInput?
  {
    if currentAge < MinimumAge then Some(InvalidInput("Current Age", "must be greater than 17"))
    else if retirementAge < MinimumAge then Some(InvalidInput("Retirement Age", "must be greater than 17"))
    else if retirementAge <= currentAge then Some(InvalidInput("Retirement Age", "must be greater than Current Age"))
    else None
  }

  /** The number of monthly deposits, at least one year's worth. */
  function Months(currentAge: int, retirementAge: int): (m: nat)
    requires currentAge < retirementAge
    ensures m >= 12 && m % 12 == 0
    ensures m / 12 == retirementAge - currentAge
  {
    (retirementAge - currentAge) * 12
  }

  /** BigDecimal.pow refuses exponents outside 0..999999999. */
  const MaxPowExponent: int := 999_999_999

  /** The largest scale a BigDecimal can carry (Integer.MAX_VALUE). */
  const MaxScale: int := 0x7FFF_FFFF

  /**
   * BigDecimal.pow throws ArithmeticException when the exponent is out of
   * range, or when the scale of the power (scale * n) does not fit an int and
   * the base is not zero.
   */
  predicate PowFails(base: Dec, n: int)
  {
    n < 0 || n > MaxPowExponent || (base.scale * n > MaxScale && !IsZero(base))
  }

  /** interestRate / (100 * 12) to 10 places, HALF_UP. */
  function MonthlyRate(rate: Dec): (r: Dec)
    ensures HalfUpAt(Value(rate) / 1200.0, 10, r)
  {
    ValueOfInteger(1200);
    Divide(rate, Dec(1200, 0), 10)
  }

  lemma ValueOfInteger(n: int)
    ensures Value(Dec(n, 0)) == n as real
  {
  }

  /**
   * The balance after `months` months when `deposit` is paid at the end of each
   * month and the balance grows by `rate` each month (an ordinary annuity).
   */
  ghost function Balance(deposit: real, rate: real, months: nat): real
  {
    if months == 0 then 0.0 else Balance(deposit, rate, months - 1) * (1.0 + rate) + deposit
  }

  /** The closed form of the annuity: r * balance == deposit * ((1 + r)^n - 1). */
  lemma {:induction false} BalanceClosedForm(deposit: real, rate: real, months: nat)
    ensures rate * Balance(deposit, rate, months) == deposit * (RealPow(1.0 + rate, months) - 1.0)
  {
    if months > 0 {
      BalanceClosedForm(deposit, rate, months - 1);
      ClosedFormNext(deposit, rate, months);
    }
  }

  lemma ClosedFormNext(deposit: real, rate: real, months: nat)
    requires months > 0
    requires rate * Balance(deposit, rate, months - 1) == deposit * (RealPow(1.0 + rate, months - 1) - 1.0)
    ensures rate * Balance(deposit, rate, months) == deposit * (RealPow(1.0 + rate, months) - 1.0)
  {
    ClosedFormStep(deposit, rate, Balance(deposit, rate, months - 1), RealPow(1.0 + rate, months - 1),
                   Balance(deposit, rate, months), RealPow(1.0 + rate, months));
  }

  /** One month of the annuity keeps r * balance == deposit * (growth - 1). */
  lemma ClosedFormStep(deposit: real, rate: real, balance: real, growth: real, next: real, nextGrowth: real)
    requires rate * balance == deposit * (growth - 1.0)
    requires next == balance * (1.0 + rate) + deposit && nextGrowth == (1.0 + rate) * growth
    ensures rate * next == deposit * (nextGrowth - 1.0)
  {
    calc {
      rate * (balance * (1.0 + rate) + deposit);
      (rate * balance) * (1.0 + rate) + rate * deposit;
      deposit * (growth - 1.0) * (1.0 + rate) + rate * deposit;
      deposit * ((1.0 + rate) * growth - 1.0);
    }
  }

  /** Without interest the balance is the sum of the deposits. */
  lemma {:induction false} BalanceWithoutInterest(deposit: real, months: nat)
    ensures Balance(deposit, 0.0, months) == deposit * months as real
  {
    if months > 0 {
      BalanceWithoutInterest(deposit, months - 1);
    }
  }

  /**
   * The BigDecimal projection before the final setScale: deposit * months when
   * the monthly rate is zero, otherwise deposit * ((1 + r)^months - 1) / r to
   * 10 places, HALF_UP.  In both cases it is the month-by-month annuity
   * balance, exactly or rounded to 10 places.
   */
  function Projection(deposit: Dec, monthlyRate: Dec, months: nat): (r: Dec)
    ensures IsZero(monthlyRate) ==> Value(r) == Balance(Value(deposit), 0.0, months)
    ensures !IsZero(monthlyRate) ==> HalfUpAt(Balance(Value(deposit), Value(monthlyRate), months), 10, r)
  {
    if IsZero(monthlyRate) then
      ValueOfInteger(months);
      BalanceWithoutInterest(Value(deposit), months);
      Multiply(deposit, Dec(months, 0))
    else
      var base := Add(One, monthlyRate);
      var growth := Pow(base, months);
      var excess := Subtract(growth, One);
      ValueOfInteger(1);
      GrowthExcess(monthlyRate, base, growth, excess, months);
      AnnuityOfExcess(deposit, excess, monthlyRate, months);
      Divide(Multiply(deposit, excess), monthlyRate, 10)
  }

  /** The decimal steps 1 + rate, its power and that power less one give the growth less one. */
  lemma GrowthExcess(monthlyRate: Dec, base: Dec, growth: Dec, excess: Dec, months: nat)
    requires Value(One) == 1.0
    requires Value(base) == Value(One) + Value(monthlyRate)
    requires Value(growth) == RealPow(Value(base), months)
    requires Value(excess) == Value(growth) - Value(One)
    ensures Value(excess) == Compound(Value(monthlyRate), months) - 1.0
  {
  }

  /** The product deposit * (growth - 1), divided by the non-zero rate, is the annuity balance. */
  lemma AnnuityOfExcess(deposit: Dec, excess: Dec, monthlyRate: Dec, months: nat)
    requires !IsZero(monthlyRate)
    requires Value(excess) == Compound(Value(monthlyRate), months) - 1.0
    ensures Value(Multiply(deposit, excess)) / Value(monthlyRate) == Balance(Value(deposit), Value(monthlyRate), months)
  {
    AnnuityQuotient(Value(Multiply(deposit, excess)), Value(deposit), Value(excess), Value(monthlyRate), months);
  }

  /** The growth factor (1 + rate)^months of a balance left to compound. */
  ghost function Compound(rate: real, months: nat): real
  {
    RealPow(1.0 + rate, months)
  }

  /**
   * A numerator deposit * ((1 + rate)^months - 1) divided by a non-zero rate
   * is the annuity balance.
   */
  lemma AnnuityQuotient(numerator: real, deposit: real, excess: real, rate: real, months: nat)
    requires rate != 0.0
    requires numerator == deposit * excess && excess == Compound(rate, months) - 1.0
    ensures numerator / rate == Balance(deposit, rate, months)
  {
    BalanceClosedForm(deposit, rate, months);
    QuotientOfProduct(numerator, rate, Balance(deposit, rate, months));
  }

  lemma QuotientOfProduct(x: real, divisor: real, q: real)
    requires divisor != 0.0 && x == divisor * q
    ensures x / divisor == q
  {
  }

  /**
   * The future value reported: the projection at the monthly rate, rounded
   * HALF_UP to 2 places.  With a zero monthly rate it is deposit * months
   * rounded; otherwise it is the month-by-month annuity balance rounded to
   * 10 places and then to 2.
   */
  function FutureValue(deposit: Dec, rate: Dec, months: nat): (r: Dec)
    ensures r.scale == 2
    ensures IsZero(MonthlyRate(rate)) ==> HalfUpAt(Value(deposit) * months as real, 2, r)
    ensures !IsZero(MonthlyRate(rate)) ==>
      exists projected: Dec ::
        HalfUpAt(Balance(Value(deposit), Value(MonthlyRate(rate)), months), 10, projected) &&
        HalfUpAt(Value(projected), 2, r)
  {
    var monthlyRate := MonthlyRate(rate);
    var projected := Projection(deposit, monthlyRate, months);
    if IsZero(monthlyRate) then
      ZeroRateFutureValue(deposit, monthlyRate, months);
      SetScale(projected, 2)
    else
      SetScale(projected, 2)
  }

  /** The caller's rate when given, otherwise the cached rate text read as a decimal. */
  function ChooseRate(requested: Option<Dec>, cachedRate: string): (r: Option<Dec>)
    ensures requested.Some? ==> r == requested
    ensures requested.None? ==> r == Parse(cachedRate)
  {
    if requested.Some? then requested else Parse(cachedRate)
  }

  /**
   * The checks and reads before the projection: the ages, the cache, both
   * entries and their reading as decimals.  On success, the cached deposit
   * and the rate used.
   */
  function Entries(dto: Retirement, deposits: map<string, string>, rates: map<string, string>,
                   reachable: bool): (r: Result<(Dec, Dec), CalcError>)
    ensures r.Ok? ==> AgeError(dto.currentAge, dto.retirementAge).None? && reachable
    ensures r.Ok? ==> Some(r.value.0) == CachedDeposit(dto, deposits)
    ensures r.Ok? ==> Some(r.value.1) == EffectiveRate(dto, rates)
    ensures r.Err? && r.error.InvalidInput? <==> AgeError(dto.currentAge, dto.retirementAge).Some?
    ensures r.Err? && r.error.LifestyleNotFound? ==> r.error == LifestyleNotFound(dto.lifestyleType)
  {
    var invalid := AgeError(dto.currentAge, dto.retirementAge);
    if invalid.Some? then Err(invalid.value)
    else if !reachable then Err(CalculationFailed)
    else
      var key := ToLower(dto.lifestyleType);
      if key !in deposits then Err(LifestyleNotFound(dto.lifestyleType))
      else if key !in rates then Err(LifestyleNotFound(dto.lifestyleType))
      else
        match Parse(deposits[key])
        case None => Err(CalculationFailed)
        case Some(deposit) =>
          match ChooseRate(dto.interestRate, rates[key])
          case None => Err(CalculationFailed)
          case Some(rate) => Ok((deposit, rate))
  }

  /**
   * The projection over a month count.  The count is an int in the code, so
   * it may be negative: pow then refuses it, while with a zero monthly rate
   * deposit * months is simply negative.
   */
  function Projected(dto: Retirement, deposit: Dec, rate: Dec, months: int): (r: Result<RetirementResult, CalcError>)
    ensures r.Ok? ==> r.value.futureValue.scale == 2
    ensures r.Err? <==> !IsZero(MonthlyRate(rate)) && PowFails(Add(One, MonthlyRate(rate)), months)
    ensures months < 0 && r.Ok? ==> HalfUpAt(Value(deposit) * months as real, 2, r.value.futureValue)
  {
    var monthlyRate := MonthlyRate(rate);
    if !IsZero(monthlyRate) && PowFails(Add(One, monthlyRate), months) then Err(CalculationFailed)
    else if months < 0 then
      ScaledCount(deposit, months);
      Ok(RetirementResult(dto.currentAge, dto.retirementAge, rate, dto.lifestyleType, deposit,
                          SetScale(Multiply(deposit, Dec(months, 0)), 2)))
    else
      Ok(RetirementResult(dto.currentAge, dto.retirementAge, rate, dto.lifestyleType, deposit,
                          FutureValue(deposit, rate, months)))
  }

  /** deposit * months at 2 places is the HALF_UP rounding of the real product. */
  lemma ScaledCount(deposit: Dec, months: int)
    ensures HalfUpAt(Value(deposit) * months as real, 2, SetScale(Multiply(deposit, Dec(months, 0)), 2))
  {
    ValueOfInteger(months);
    var product := Multiply(deposit, Dec(months, 0));
    assert Value(product) == Value(deposit) * months as real;
  }

  /**
   * RetirementService.calculatePlan, with the month count the code evidently
   * intends.  Only the age checks raise InvalidInput: the domain exceptions
   * are rethrown and any other failure becomes CalculationFailed.
   */
  function CalculatePlan(dto: Retirement, deposits: map<string, string>, rates: map<string, string>,
                         reachable: bool): (r: Result<RetirementResult, CalcError>)
    ensures r.Err? && r.error.InvalidInput? <==> AgeError(dto.currentAge, dto.retirementAge).Some?
    ensures r.Err? && r.error.LifestyleNotFound? ==> r.error == LifestyleNotFound(dto.lifestyleType)
    ensures r.Ok? ==> r.value.futureValue.scale == 2 && r.value.lifestyleType == dto.lifestyleType
  {
    match Entries(dto, deposits, rates, reachable)
    case Err(e) => Err(e)
    case Ok((deposit, rate)) => Projected(dto, deposit, rate, Months(dto.currentAge, dto.retirementAge))
  }

  /** RetirementService.calculatePlan as written: the month count is Java int arithmetic. */
  function CalculatePlanAsWritten(dto: Retirement, deposits: map<string, string>, rates: map<string, string>,
                                  reachable: bool): (r: Result<RetirementResult, CalcError>)
    ensures r.Err? && r.error.InvalidInput? <==> AgeError(dto.currentAge, dto.retirementAge).Some?
    ensures r.Ok? ==> r.value.futureValue.scale == 2 && r.value.lifestyleType == dto.lifestyleType
  {
    match Entries(dto, deposits, rates, reachable)
    case Err(e) => Err(e)
    case Ok((deposit, rate)) => Projected(dto, deposit, rate, MonthsAsWritten(dto.currentAge, dto.retirementAge))
  }

  /** The key both caches are consulted under. */
  function LookupKey(dto: Retirement): string
  {
    ToLower(dto.lifestyleType)
  }

  /** The monthly deposit is read from its cached text. */
  function CachedDeposit(dto: Retirement, deposits: map<string, string>): Option<Dec>
  {
    if LookupKey(dto) in deposits then Parse(deposits[LookupKey(dto)]) else None
  }

  /** The rate actually used: the caller's, or the cached one read as a decimal. */
  function EffectiveRate(dto: Retirement, rates: map<string, string>): Option<Dec>
  {
    if LookupKey(dto) in rates then ChooseRate(dto.interestRate, rates[LookupKey(dto)]) else None
  }

  /** Validation comes first: bad ages are reported whatever the caches hold. */
  lemma InvalidAgesReportedFirst(dto: Retirement, deposits: map<string, string>,
                                 rates: map<string, string>, reachable: bool)
    requires AgeError(dto.currentAge, dto.retirementAge).Some?
    ensures CalculatePlan(dto, deposits, rates, reachable) == Err(AgeError(dto.currentAge, dto.retirementAge).value)
    ensures dto.currentAge < MinimumAge ==>
      CalculatePlan(dto, deposits, rates, reachable) == Err(InvalidInput("Current Age", "must be greater than 17"))
    ensures MinimumAge <= dto.currentAge && dto.retirementAge <= dto.currentAge ==>
      CalculatePlan(dto, deposits, rates, reachable).error.field == "Retirement Age"
  {
  }

  /** An unreachable cache fails every valid request with the generic error. */
  lemma UnreachableCacheFails(dto: Retirement, deposits: map<string, string>, rates: map<string, string>)
    requires AgeError(dto.currentAge, dto.retirementAge).None?
    ensures CalculatePlan(dto, deposits, rates, false) == Err(CalculationFailed)
    ensures ErrorCode(CalculatePlan(dto, deposits, rates, false).error) == "RC-500"
  {
  }

  /**
   * A lifestyle type without both a cached deposit and a cached rate is not
   * found, even when the caller supplies a rate.
   */
  lemma MissingEntryNotFound(dto: Retirement, deposits: map<string, string>, rates: map<string, string>)
    requires AgeError(dto.currentAge, dto.retirementAge).None?
    requires LookupKey(dto) !in deposits || LookupKey(dto) !in rates
    ensures CalculatePlan(dto, deposits, rates, true) == Err(LifestyleNotFound(dto.lifestyleType))
  {
  }

  /** Cached text that is not a decimal number fails with the generic error. */
  lemma UnparsableCacheFails(dto: Retirement, deposits: map<string, string>, rates: map<string, string>)
    requires AgeError(dto.currentAge, dto.retirementAge).None?
    requires LookupKey(dto) in deposits && LookupKey(dto) in rates
    requires CachedDeposit(dto, deposits).None? || EffectiveRate(dto, rates).None?
    ensures CalculatePlan(dto, deposits, rates, true) == Err(CalculationFailed)
  {
  }

  /**
   * The calculation succeeds exactly when the ages are valid, the cache
   * answers, both entries exist and read as decimals, and the power can be
   * taken.
   */
  lemma PlanSucceedsIff(dto: Retirement, deposits: map<string, string>, rates: map<string, string>,
                        reachable: bool)
    ensures CalculatePlan(dto, deposits, rates, reachable).Ok? <==>
      MinimumAge <= dto.currentAge < dto.retirementAge && reachable &&
      LookupKey(dto) in deposits && LookupKey(dto) in rates &&
      CachedDeposit(dto, deposits).Some? && EffectiveRate(dto, rates).Some? &&
      (IsZero(MonthlyRate(EffectiveRate(dto, rates).value)) ||
       !PowFails(Add(One, MonthlyRate(EffectiveRate(dto, rates).value)),
                 Months(dto.currentAge, dto.retirementAge)))
  {
  }

  /**
   * A successful result echoes the request, reports the cached deposit and the
   * rate used, and its future value is the month-by-month annuity balance
   * rounded HALF_UP to 10 places (when the monthly rate is not zero) and then
   * to 2 places.
   */
  lemma PlanResult(dto: Retirement, deposits: map<string, string>, rates: map<string, string>,
                   reachable: bool, res: RetirementResult)
    requires CalculatePlan(dto, deposits, rates, reachable) == Ok(res)
    ensures res.currentAge == dto.currentAge && res.retirementAge == dto.retirementAge
    ensures res.lifestyleType == dto.lifestyleType
    ensures Some(res.monthlyDeposit) == CachedDeposit(dto, deposits)
    ensures Some(res.interestRate) == EffectiveRate(dto, rates)
    ensures res.futureValue == FutureValue(res.monthlyDeposit, res.interestRate, Months(dto.currentAge, dto.retirementAge))
  {
  }

  /** With a zero monthly rate the future value is deposit * months rounded to 2 places. */
  lemma ZeroRateFutureValue(deposit: Dec, monthlyRate: Dec, months: nat)
    requires IsZero(monthlyRate)
    ensures HalfUpAt(Value(deposit) * months as real, 2, SetScale(Projection(deposit, monthlyRate, months), 2))
  {
    BalanceWithoutInterest(Value(deposit), months);
  }

  /** The caller's rate, when given, wins over the cached one. */
  lemma RequestedRateOverridesCache(dto: Retirement, deposits: map<string, string>,
                                    rates: map<string, string>, otherRate: string, reachable: bool)
    requires dto.interestRate.Some?
    requires LookupKey(dto) in rates
    ensures CalculatePlan(dto, deposits, rates, reachable) ==
            CalculatePlan(dto, deposits, rates[LookupKey(dto) := otherRate], reachable)
    ensures CalculatePlan(dto, deposits, rates, reachable).Ok? ==>
            CalculatePlan(dto, deposits, rates, reachable).value.interestRate == dto.interestRate.value
  {
    assert Entries(dto, deposits, rates, reachable) ==
           Entries(dto, deposits, rates[LookupKey(dto) := otherRate], reachable);
  }

  /** The lifestyle type reported back: the result's, or the one in a not-found error. */
  function Retyped(r: Result<RetirementResult, CalcError>, lifestyleType: string): Result<RetirementResult, CalcError>
  {
    match r
    case Ok(res) => Ok(res.(lifestyleType := lifestyleType))
    case Err(LifestyleNotFound(_)) => Err(LifestyleNotFound(lifestyleType))
    case Err(e) => Err(e)
  }

  /**
   * The lookup ignores letter case: two spellings of a lifestyle type give the
   * same outcome, up to the spelling echoed back.
   */
  lemma LookupIgnoresCase(dto: Retirement, spelling: string, deposits: map<string, string>,
                          rates: map<string, string>, reachable: bool)
    requires ToLower(spelling) == ToLower(dto.lifestyleType)
    ensures CalculatePlan(dto.(lifestyleType := spelling), deposits, rates, reachable) ==
            Retyped(CalculatePlan(dto, deposits, rates, reachable), spelling)
  {
    assert LookupKey(dto.(lifestyleType := spelling)) == LookupKey(dto);
  }

  /** Only lower-case keys can ever be found: an entry under a key with a capital is never used. */
  lemma CapitalisedKeysUnreachable(dto: Retirement, deposits: map<string, string>, rates: map<string, string>,
                                   key: string, text: string, reachable: bool)
    requires !IsLower(key)
    ensures CalculatePlan(dto, deposits[key := text], rates, reachable) ==
            CalculatePlan(dto, deposits, rates, reachable)
  {
    assert LookupKey(dto) != key;
    assert deposits[key := text] - {key} == deposits - {key};
  }

  /**
   * A rate below 0.00000006 in magnitude gives a zero monthly rate at 10
   * places, so the plan falls back to deposit * months.
   */
  lemma TinyRateIsZero(rate: Dec)
    requires -0.00000006 < Value(rate) < 0.00000006
    ensures IsZero(MonthlyRate(rate))
  {
    var r := MonthlyRate(rate);
    var x := Value(rate) / 1200.0 * Pow10(10) as real;
    assert Pow10(10) == 10_000_000_000;
    assert -0.5 < x < 0.5;
    assert RoundsHalfUp(x, 0);
    RoundsHalfUpUnique(x, 0, r.unscaled);
    ValueZero(r);
  }

  /** A negative rate is not refused: the code has no check on the rate. */
  lemma NegativeRateAccepted()
    ensures CalculatePlan(Retirement(30, 31, Some(Dec(-10, 1)), "fancy"),
                          map["fancy" := "3000"], map["fancy" := "5.0"], true).Ok?
  {
    var dto := Retirement(30, 31, Some(Dec(-10, 1)), "fancy");
    FancyEntry();
    assert CachedDeposit(dto, map["fancy" := "3000"]).Some?;
    assert EffectiveRate(dto, map["fancy" := "5.0"]) == Some(Dec(-10, 1));
    assert Months(30, 31) == 12;
    OneYearPowerDefined(Dec(-10, 1));
    PlanSucceedsIff(dto, map["fancy" := "3000"], map["fancy" := "5.0"], true);
  }

  /** A year of monthly compounding never exceeds BigDecimal.pow's limits. */
  lemma OneYearPowerDefined(rate: Dec)
    ensures !PowFails(Add(One, MonthlyRate(rate)), 12)
  {
    assert Add(One, MonthlyRate(rate)).scale == 10;
  }

  /** With a zero rate the future value is deposit * months: 3000 a month for 35 years. */
  lemma ZeroRateScenario()
    ensures CalculatePlan(Retirement(30, 65, Some(Dec(0, 1)), "fancy"),
                          map["fancy" := "3000"], map["fancy" := "5.0"], true) ==
            Ok(RetirementResult(30, 65, Dec(0, 1), "fancy", Dec(3000, 0), Dec(126000000, 2)))
  {
    var dto := Retirement(30, 65, Some(Dec(0, 1)), "fancy");
    FancyEntry();
    assert LookupKey(dto) == "fancy";
    ZeroRateFutureValueOfFancy();
    assert Months(30, 65) == 420;
    ValueZero(Dec(0, 1));
    TinyRateIsZero(Dec(0, 1));
    PlanOfEntries(dto, map["fancy" := "3000"], map["fancy" := "5.0"], Dec(3000, 0), Dec(0, 1));
  }

  /** With both entries readable and the power defined, the plan reports the future value. */
  lemma PlanOfEntries(dto: Retirement, deposits: map<string, string>, rates: map<string, string>,
                      deposit: Dec, rate: Dec)
    requires AgeError(dto.currentAge, dto.retirementAge).None?
    requires LookupKey(dto) in deposits && LookupKey(dto) in rates
    requires Parse(deposits[LookupKey(dto)]) == Some(deposit)
    requires ChooseRate(dto.interestRate, rates[LookupKey(dto)]) == Some(rate)
    requires IsZero(MonthlyRate(rate)) || !PowFails(Add(One, MonthlyRate(rate)), Months(dto.currentAge, dto.retirementAge))
    ensures CalculatePlan(dto, deposits, rates, true) ==
            Ok(RetirementResult(dto.currentAge, dto.retirementAge, rate, dto.lifestyleType, deposit,
                                FutureValue(deposit, rate, Months(dto.currentAge, dto.retirementAge))))
  {
  }

  lemma ZeroRateFutureValueOfFancy()
    ensures FutureValue(Dec(3000, 0), Dec(0, 1), 420) == Dec(126000000, 2)
  {
    ValueZero(Dec(0, 1));
    TinyRateIsZero(Dec(0, 1));
    var fv := FutureValue(Dec(3000, 0), Dec(0, 1), 420);
    ValueOfInteger(3000);
    var x := 3000.0 * 420 as real;
    assert HalfUpAt(x, 2, fv);
    assert Pow10(2) == 100;
    assert RoundsHalfUp(x * 100.0, fv.unscaled);
    assert RoundsHalfUp(x * 100.0, 126000000);
    RoundsHalfUpUnique(x * 100.0, 126000000, fv.unscaled);
  }

  /** While the int month count does not wrap, the code as written computes the same plan. */
  lemma PlanAsWrittenAgrees(dto: Retirement, deposits: map<string, string>, rates: map<string, string>,
                            reachable: bool)
    requires -0x8000_0000 <= dto.currentAge && dto.retirementAge < 0x8000_0000
    requires dto.retirementAge - dto.currentAge <= 178956970
    ensures CalculatePlanAsWritten(dto, deposits, rates, reachable) == CalculatePlan(dto, deposits, rates, reachable)
  {
    if AgeError(dto.currentAge, dto.retirementAge).None? {
      MonthsAsWrittenAgrees(dto.currentAge, dto.retirementAge);
    }
  }

  /**
   * Ages 17 and 178956988 at a zero rate with a cached deposit of 3000: the
   * code as written reports a negative future value, the intended count
   * 2147483652 months of 3000.
   */
  lemma PlanAsWrittenNegative()
    ensures CalculatePlanAsWritten(Retirement(17, 178956988, Some(Dec(0, 1)), "fancy"),
                                   map["fancy" := "3000"], map["fancy" := "5.0"], true) ==
            Ok(RetirementResult(17, 178956988, Dec(0, 1), "fancy", Dec(3000, 0), Dec(-644245093200000, 2)))
    ensures CalculatePlan(Retirement(17, 178956988, Some(Dec(0, 1)), "fancy"),
                          map["fancy" := "3000"], map["fancy" := "5.0"], true) ==
            Ok(RetirementResult(17, 178956988, Dec(0, 1), "fancy", Dec(3000, 0), Dec(644245095600000, 2)))
  {
    var dto := Retirement(17, 178956988, Some(Dec(0, 1)), "fancy");
    var deposits, rates := map["fancy" := "3000"], map["fancy" := "5.0"];
    LongSpanEntries();
    MonthsAsWrittenWraps();
    ValueZero(Dec(0, 1));
    TinyRateIsZero(Dec(0, 1));
    PlansOfEntries(dto, deposits, rates, true, Dec(3000, 0), Dec(0, 1));
    ZeroRateProjected(dto, Dec(3000, 0), Dec(0, 1), -2147483644);
    NegativeDepositTotal();
    ZeroRateProjected(dto, Dec(3000, 0), Dec(0, 1), 2147483652);
    LongZeroRateFutureValue();
  }

  /** Once the checks pass, both versions of the calculation are the projection over their month count. */
  lemma PlansOfEntries(dto: Retirement, deposits: map<string, string>, rates: map<string, string>,
                       reachable: bool, deposit: Dec, rate: Dec)
    requires Entries(dto, deposits, rates, reachable) == Ok((deposit, rate))
    ensures CalculatePlan(dto, deposits, rates, reachable) ==
            Projected(dto, deposit, rate, Months(dto.currentAge, dto.retirementAge))
    ensures CalculatePlanAsWritten(dto, deposits, rates, reachable) ==
            Projected(dto, deposit, rate, MonthsAsWritten(dto.currentAge, dto.retirementAge))
  {
  }

  /** With a zero monthly rate the projection always succeeds, also for a negative month count. */
  lemma ZeroRateProjected(dto: Retirement, deposit: Dec, rate: Dec, months: int)
    requires IsZero(MonthlyRate(rate))
    ensures months < 0 ==>
      Projected(dto, deposit, rate, months) ==
      Ok(RetirementResult(dto.currentAge, dto.retirementAge, rate, dto.lifestyleType, deposit,
                          SetScale(Multiply(deposit, Dec(months, 0)), 2)))
    ensures months >= 0 ==>
      Projected(dto, deposit, rate, months) ==
      Ok(RetirementResult(dto.currentAge, dto.retirementAge, rate, dto.lifestyleType, deposit,
                          FutureValue(deposit, rate, months)))
  {
  }

  lemma LongSpanEntries()
    ensures Entries(Retirement(17, 178956988, Some(Dec(0, 1)), "fancy"),
                    map["fancy" := "3000"], map["fancy" := "5.0"], true) == Ok((Dec(3000, 0), Dec(0, 1)))
  {
    var dto := Retirement(17, 178956988, Some(Dec(0, 1)), "fancy");
    FancyEntry();
    assert LookupKey(dto) == "fancy";
    EntriesOf(dto, map["fancy" := "3000"], map["fancy" := "5.0"], Dec(3000, 0), Dec(0, 1));
  }

  lemma NegativeDepositTotal()
    ensures SetScale(Multiply(Dec(3000, 0), Dec(-2147483644, 0)), 2) == Dec(-644245093200000, 2)
  {
    assert Pow10(2) == 100;
  }

  /** With both entries readable, the checks before the projection pass with them. */
  lemma EntriesOf(dto: Retirement, deposits: map<string, string>, rates: map<string, string>,
                  deposit: Dec, rate: Dec)
    requires AgeError(dto.currentAge, dto.retirementAge).None?
    requires LookupKey(dto) in deposits && LookupKey(dto) in rates
    requires Parse(deposits[LookupKey(dto)]) == Some(deposit)
    requires ChooseRate(dto.interestRate, rates[LookupKey(dto)]) == Some(rate)
    ensures Entries(dto, deposits, rates, true) == Ok((deposit, rate))
  {
  }

  lemma LongZeroRateFutureValue()
    ensures FutureValue(Dec(3000, 0), Dec(0, 1), 2147483652) == Dec(644245095600000, 2)
  {
    ValueZero(Dec(0, 1));
    TinyRateIsZero(Dec(0, 1));
    var fv := FutureValue(Dec(3000, 0), Dec(0, 1), 2147483652);
    ValueOfInteger(3000);
    var x := 3000.0 * 2147483652 as real;
    assert HalfUpAt(x, 2, fv);
    assert Pow10(2) == 100;
    assert RoundsHalfUp(x * 100.0, fv.unscaled);
    assert RoundsHalfUp(x * 100.0, 644245095600000);
    RoundsHalfUpUnique(x * 100.0, 644245095600000, fv.unscaled);
  }

  /**
   * A cached deposit whose scale leaves the int range is refused by the
   * BigDecimal constructor, so the calculation fails with the generic error.
   */
  lemma CachedScaleOverflowFails(dto: Retirement, deposits: map<string, string>, rates: map<string, string>)
    requires AgeError(dto.currentAge, dto.retirementAge).None?
    requires LookupKey(dto) in rates
    ensures Parse("1e-2147483648") == None
    ensures CalculatePlan(dto, deposits[LookupKey(dto) := "1e-2147483648"], rates, true) == Err(CalculationFailed)
  {
    ScaleOverflowRefused();
    UnparsableCacheFails(dto, deposits[LookupKey(dto) := "1e-2147483648"], rates);
  }

  lemma ScaleOverflowRefused()
    ensures Parse("1e-2147483648") == None
  {
    var body := "1e-2147483648";
    assert body[1..][0] == 'e';
    assert ExponentMark(body) == 1;
    assert body[..1] == ['1'];
    SingleDigitMantissa('1');
    assert body[2..] == "-2147483648";
    IntMinExponent();
    assert ParseUnsigned(body) == None;
  }

  lemma IntMinExponent()
    ensures Exponent("-2147483648") == Some(-2147483648)
  {
    IntMinMagnitudeDigits();
    assert "-2147483648"[1..] == "2147483648";
    NegativeExponent("-2147483648", "2147483648");
  }

  lemma IntMinMagnitudeDigits()
    ensures NatToString(2147483648) == "2147483648"
    ensures AllDigits("2147483648") && DigitsValue("2147483648") == 2147483648
  {
    NatToStringStep(21);
    NatToStringStep(214);
    NatToStringStep(2147);
    NatToStringStep(21474);
    NatToStringStep(214748);
    NatToStringStep(2147483);
    NatToStringStep(21474836);
    NatToStringStep(214748364);
    NatToStringStep(2147483648);
  }

  /** The lower-case type "fancy" is its own key and "3000" reads as 3000. */
  lemma FancyEntry()
    ensures ToLower("fancy") == "fancy"
    ensures Parse("3000") == Some(Dec(3000, 0))
  {
    ToLowerOfLower("fancy");
    ParseThreeThousand();
  }

  lemma ParseThreeThousand()
    ensures Parse("3000") == Some(Dec(3000, 0))
  {
    PlainThreeThousand();
    ParsePlain(Dec(3000, 0));
  }

  lemma PlainThreeThousand()
    ensures ToPlain(Dec(3000, 0)) == "3000"
  {
    ThreeThousandDigits();
    assert PlainDigits(Dec(3000, 0)) == "3000";
  }

  lemma ThreeThousandDigits()
    ensures NatToString(3000) == "3000"
  {
    ThreeHundredDigits();
    NatToStringStep(3000);
  }

  lemma ThreeHundredDigits()
    ensures NatToString(300) == "300"
  {
    NatToStringStep(30);
    NatToStringStep(300);
  }

  lemma NatToStringStep(n: nat)
    requires n >= 10
    ensures NatToString(n) == NatToString(n / 10) + [DigitChar(n % 10)]
  {
  }

  /** The 32-bit two's complement value of an integer (Java int arithmetic). */
  function Int32(x: int): (r: int)
    ensures -0x8000_0000 <= r < 0x8000_0000
    ensures (r - x) % 0x1_0000_0000 == 0
  {
    (x + 0x8000_0000) % 0x1_0000_0000 - 0x8000_0000
  }

  /** The month count as the code computes it: an int multiplication that can wrap. */
  function MonthsAsWritten(currentAge: int, retirementAge: int): (m: int)
    requires currentAge < retirementAge
    ensures -0x8000_0000 <= m < 0x8000_0000
    ensures (m - (retirementAge - currentAge) * 12) % 0x1_0000_0000 == 0
  {
    var years := Int32(retirementAge - currentAge);
    WrapTimesTwelve(years, retirementAge - currentAge, Int32(years * 12));
    Int32(years * 12)
  }

  /** Multiplying by 12 keeps two numbers congruent modulo 2^32. */
  lemma WrapTimesTwelve(wrapped: int, exact: int, product: int)
    requires (wrapped - exact) % 0x1_0000_0000 == 0
    requires (product - wrapped * 12) % 0x1_0000_0000 == 0
    ensures (product - exact * 12) % 0x1_0000_0000 == 0
  {
    var p := (wrapped - exact) / 0x1_0000_0000;
    var q := (product - wrapped * 12) / 0x1_0000_0000;
    assert product - exact * 12 == 0x1_0000_0000 * (q + 12 * p);
  }

  /** The int month count wraps to a negative number for a span of 178956971 years. */
  lemma MonthsAsWrittenWraps()
    ensures AgeError(17, 178956988).None?
    ensures MonthsAsWritten(17, 178956988) == -2147483644 < 0
    ensures Months(17, 178956988) == 2147483652
  {
  }

  /** For spans up to 178956970 years the int month count is the true one. */
  lemma MonthsAsWrittenAgrees(currentAge: int, retirementAge: int)
    requires -0x8000_0000 <= currentAge < retirementAge < 0x8000_0000
    requires retirementAge - currentAge <= 178956970
    ensures MonthsAsWritten(currentAge, retirementAge) == Months(currentAge, retirementAge)
  {
  }
}

=== FILE: text.dfy ===
/**
 * The pieces of java.lang.String and Long.toString the model needs:
 * toLowerCase (on ASCII letters) and decimal digit strings.
 */
module Text {

  /** Character.toLowerCase on the ASCII range; other characters are kept. */
  function LowerChar(c: char): char
  {
    if 'A' <= c <= 'Z' then (c as int + 32) as char else c
  }

  predicate IsUpperAscii(c: char) { 'A' <= c <= 'Z' }

  /** No ASCII upper-case letter occurs in s. */
  predicate IsLower(s: string)
  {
    forall i :: 0 <= i < |s| ==> !IsUpperAscii(s[i])
  }

  /** String.toLowerCase(). */
  function ToLower(s: string): (r: string)
    ensures |r| == |s|
    ensures IsLower(r)
    ensures forall i :: 0 <= i < |s| ==> r[i] == LowerChar(s[i])
  {
    if s == [] then [] else [LowerChar(s[0])] + ToLower(s[1..])
  }

  /** Lower-casing leaves an already lower-case string alone. */
  lemma {:induction false} ToLowerOfLower(s: string)
    requires IsLower(s)
    ensures ToLower(s) == s
  {
    if s != [] {
      ToLowerOfLower(s[1..]);
    }
  }

  /** Lower-casing is idempotent. */
  lemma ToLowerIdempotent(s: string)
    ensures ToLower(ToLower(s)) == ToLower(s)
  {
    ToLowerOfLower(ToLower(s));
  }

  predicate IsDigit(c: char) { '0' <= c <= '9' }

  predicate AllDigits(s: string)
  {
    forall i :: 0 <= i < |s| ==> IsDigit(s[i])
  }

  function DigitChar(d: nat): (c: char)
    requires d < 10
    ensures IsDigit(c)
  {
    ('0' as int + d) as char
  }

  /** The number a string of decimal digits spells, most significant first. */
  function DigitsValue(s: string): nat
    requires AllDigits(s)
  {
    if s == [] then 0
    else DigitsValue(s[..|s| - 1]) * 10 + (s[|s| - 1] as int - '0' as int)
  }

  /** Long.toString(n) for n >= 0: the shortest digit string. */
  function NatToString(n: nat): (r: string)
    ensures AllDigits(r) && 1 <= |r|
    ensures |r| > 1 ==> r[0] != '0'
    ensures DigitsValue(r) == n
  {
    if n < 10 then [DigitChar(n)]
    else
      var init := NatToString(n / 10);
      var r := init + [DigitChar(n % 10)];
      assert r[..|r| - 1] == init;
      r
  }

  /** Leading zeros do not change the number a digit string spells. */
  lemma {:induction false} LeadingZeros(k: nat, s: string)
    requires AllDigits(s)
    ensures AllDigits(Zeros(k) + s)
    ensures DigitsValue(Zeros(k) + s) == DigitsValue(s)
  {
    if k > 0 {
      LeadingZeros(k - 1, s);
      LeadingZero(Zeros(k - 1) + s);
      assert Zeros(k) == ['0'] + Zeros(k - 1);
      assert Zeros(k) + s == ['0'] + (Zeros(k - 1) + s);
    } else {
      assert Zeros(k) + s == s;
    }
  }

  lemma {:induction false} LeadingZero(s: string)
    requires AllDigits(s)
    ensures AllDigits(['0'] + s)
    ensures DigitsValue(['0'] + s) == DigitsValue(s)
  {
    if s != [] {
      var t := ['0'] + s;
      assert t[..|t| - 1] == ['0'] + s[..|s| - 1];
      LeadingZero(s[..|s| - 1]);
    }
  }

  function Zeros(k: nat): (r: string)
    ensures |r| == k && AllDigits(r)
    ensures forall i :: 0 <= i < k ==> r[i] == '0'
  {
    if k == 0 then [] else ['0'] + Zeros(k - 1)
  }
}

=== FILE: wrappers.dfy ===
/** Optional values and success-or-failure outcomes shared by the model's modules. */
module Wrappers {

  /** A value that may be absent: Java's null. */
  datatype Option<+T> = None | Some(value: T)

  /** Either a value or the error that the source raises instead. */
  datatype Result<+T, +E> = Ok(value: T) | Err(error: E)
}
